=== FILE: README.md ===
# Run-length codec of `rle_tool.c`, modelled in Dafny

`rle_tool.c` turns a text file into a line-oriented run-length encoding and back.
- `compress_file` reads the input byte by byte. For every maximal run of one symbol it writes `symbol space count`. Tokens are separated by single spaces, and every input newline is copied.
- `validate_line` checks one encoded line against the token grammar.
- `decompress_file` reads the encoded file in `fgets` lines. It rejects the file at the first line `validate_line` refuses, and expands the tokens of each line with a `sscanf` loop.

The file handling is removed: an input file is a `string`, and an output file is the returned text.

The model is split into modules:
- `CText`: the C view of a string (a cursor that reads NUL at the end), the `ctype` classes, and the skipping loops.
- `Decimal`: what `%d` writes and reads.
- `Runs`: the abstract result of the encoder, a list of lines of `(symbol, count)` runs, with its expansion, rendering and length allowance.
- `Validator`, `Encoder` and `Decoder`: the three C functions as written.
- `Corrected`: the decoder with its two defects repaired.
- `RoundTrip`: the proof that the repaired decoder inverts the encoder.
- `Findings`: the inputs on which the C code goes wrong.

The model follows the code as written; in particular:
- An input whose first byte is a newline is refused, with no message.
- The separator test is `compressed_length > 0`, so the first token of every line after the first is preceded by a space.
- The digit allowance in `compressed_length` is 3 for any count above 99.
- `"a 3 b\n"` is rejected for the missing space after `b`, before any digits are looked for.
- The decoder drops blank lines and adds a final newline. After a token its cursor skips digits and spaces only: it never finishes on a line whose first symbol is not a digit, and on a line whose first symbol is a digit it skips the following digit-symbol tokens unread. See "Findings".

## Model

| member | source | states |
|---|---|---|
| Validator.ValidIffLayout | rle_tool.c:14-51 | a line is accepted exactly when it is zero or more `symbol space digits` tokens, with spaces before, between and after, up to the end of the string or a newline |
| Validator.BlankAccepted | rle_tool.c:17-20 | a line of spaces only, up to the end or a newline, is accepted |
| Validator.RejectNonPrintable | rle_tool.c:23-26 | a token symbol that fails `isprint` is rejected as non-printable |
| Validator.RejectMissingSeparator | rle_tool.c:29-33 | a printable symbol not followed by a space is rejected as a missing separator |
| Validator.RejectMissingDigits | rle_tool.c:36-40 | `symbol space` not followed by a digit is rejected as missing digits, including a second space |
| Validator.RejectTrailingGarbage | rle_tool.c:41-47 | digits followed by anything but a space, a newline or the end are rejected as trailing garbage |
| Validator.ExampleTrailingGarbage | rle_tool.c:43-47 | `"a 3x"` is rejected as trailing garbage |
| Validator.ExampleDoubleSpace | rle_tool.c:36-40 | `"a  3"` is rejected as missing digits |
| Validator.ExampleMissingCount | rle_tool.c:29-33 | `"a 3 b\n"` is rejected as a missing separator after `b` |
| Validator.ExampleAccepted | rle_tool.c:14-51 | `"a 3 b 2\n"` is accepted |
| Decimal.ParseFormat | rle_tool.c:111 | reading back the digits `%d` wrote for a count gives the count |
| Decimal.FormatLength | rle_tool.c:111 | `%d` writes 1 digit below 10, 2 below 100, 3 below 1000, and at least 4 from 1000 on |
| Encoder.Compress | rle_tool.c:61-101 | encoding fails exactly when the input is empty, starts with a newline, or holds a space anywhere, and names the first check that fires |
| Encoder.Run | rle_tool.c:94-101 | the byte loop aborts exactly when a space remains to be read |
| Encoder.CompressFaithful | rle_tool.c:94-133 | on success, the runs written expand back to the input; every run has count at least 1 and a symbol other than space or newline; neighbouring runs on a line differ; the text is their rendering, with a space before every token but the first of the whole output; the length is the token allowances plus one per newline |
| Encoder.StartEstablishes | rle_tool.c:76-92 | after the first byte the loop invariant holds |
| Encoder.StepKeeps | rle_tool.c:103-123 | every non-space byte keeps the loop invariant (runs expand to the input read so far; text and length match the runs) |
| Encoder.StepRepeat | rle_tool.c:103-104 | a repeated non-newline symbol lengthens the pending run |
| Encoder.StepCloseLine | rle_tool.c:106-119 | a newline after a symbol writes the pending run and then the newline |
| Encoder.StepNewRun | rle_tool.c:106-113 | a new symbol writes the pending run and starts another |
| Encoder.StepAfterNewline | rle_tool.c:115-122 | after a newline no run is written; another newline starts another (possibly blank) line |
| Encoder.FinishDelivers | rle_tool.c:127-133 | at end of input the pending run is written unless the last byte was a newline |
| Encoder.RunDelivers | rle_tool.c:94-124 | a space-free remainder is consumed with the invariant kept to the end |
| Encoder.EmitKeeps | rle_tool.c:107-113 | writing the pending run adds its token to the text and its allowance to the length |
| Encoder.CostBounds | rle_tool.c:112 | each token of a line adds between 3 and 5 to `compressed_length` |
| Encoder.MeasureBounds | rle_tool.c:108-119 | `compressed_length` of a run list lies between 3 and 5 per token, plus one per newline |
| Encoder.RunSameSymbol | rle_tool.c:103-104 | bytes equal to the pending symbol write nothing and only raise `count` |
| Encoder.CompressOneRun | rle_tool.c:94-133 | a file that is one run of a symbol is written as one token, with that token's allowance as length |
| Encoder.MeasurePositive | rle_tool.c:108-112 | `compressed_length` is positive exactly when a token has been written, so it decides the separator |
| RoundTrip.CompressNewlines | rle_tool.c:115-133 | the encoder writes exactly as many newlines as the input has, blank lines included, and its output ends in a newline exactly when the input does |
| Decoder.LineLength | rle_tool.c:164-170 | one `fgets` call takes up to and including the first newline, at most 1023 characters, or what is left |
| Decoder.SplitLines | rle_tool.c:164-170 | the `fgets` lines concatenate to the file, and none is empty or longer than the buffer allows |
| Decoder.SplitLinesBreaks | rle_tool.c:164-170 | `fgets` stops at the first newline: a newline is only ever the last character of a line, and every line but the last ends with a newline or fills the 1023 characters |
| Decoder.ScanToken | rle_tool.c:181 | a successful `" %c %d"` scan yields a symbol that is not white space or NUL, consumes input, and stops where no digit follows |
| Decoder.DigitsRead | rle_tool.c:181 | the digits of `%d` match exactly when a digit comes first; the whole run of digits is read, its value is the count (negated after a minus), and the scan stops right after it |
| Decoder.CountRead | rle_tool.c:181 | ` %d` after its spaces and sign stops right after a digit, and the count is, up to its sign, the value of a run of digits ending there |
| Decoder.TokenRead | rle_tool.c:181 | the same for the whole `" %c %d"` scan |
| Decoder.Step | rle_tool.c:181-190 | a pass never moves the cursor backwards, and it stays put exactly when the cursor sits on a character that is neither a digit nor a space; a matched symbol is neither white space nor NUL |
| Decoder.StepMoves | rle_tool.c:188-190 | a pass advances the cursor past exactly the maximal run of digits and spaces at it, and past nothing else |
| Decoder.DecodeLine | rle_tool.c:181-191 | a line that halts yields no white space, and no output without a token |
| Decoder.StuckForever | rle_tool.c:181-191 | a pass that does not move the cursor repeats for as long as the loop runs |
| Decoder.LoopAgrees | rle_tool.c:181-191 | the literal fuel-bounded loop finishes within the fuel exactly when the line halts within that many tokens, with the same output |
| Decoder.StuckOnNonDigitSymbol | rle_tool.c:188-190 | an accepted line whose first token's symbol is not a digit never finishes |
| Decoder.ScanSpaces | rle_tool.c:181 | leading spaces do not change what the scan reads |
| Decoder.ScanAtToken | rle_tool.c:181 | on a token that passed validation the scan matches both conversions |
| Decoder.DecodeLines | rle_tool.c:170-197 | a failure is a refused line or a diverging loop, and names a line of the file |
| Decoder.FailureBlames | rle_tool.c:170-197 | a refused-line failure names a line `validate_line` refuses, with that reason; a divergence names an accepted line whose token loop is stuck |
| Decoder.Decompress | rle_tool.c:149-201 | an empty file is refused, and only an empty file gets that error |
| Decoder.LengthCountsSymbols | rle_tool.c:183-186 | `decompressed_length` plus the newlines written is the length of the output: only symbols are counted |
| Decoder.NewlinePerTokenLine | rle_tool.c:193-196 | the output has one newline per line on which a token was matched, and none for blank lines |
| Decoder.SuccessMeansAllValid | rle_tool.c:171-176 | decoding succeeds only if every line passes validation and every token loop halts |
| Decoder.FirstInvalidReported | rle_tool.c:171-176 | the first refused line, all lines before it decoding, is the one reported, with the validator's reason |
| Corrected.Step | rle_tool.c:181-190 | the repaired pass always moves the cursor forward |
| Corrected.DecodeLine | rle_tool.c:181-191 | the repaired token loop always halts, and writes no white space |
| Corrected.DecodeLines | rle_tool.c:170-197 | the only failure is a refused line, and it names a line of the file |
| Corrected.FailureBlames | rle_tool.c:170-176 | the line a failure names is one `validate_line` refuses, with that reason |
| Corrected.Decompress | rle_tool.c:149-201 | an empty file is refused, and any other failure is a refused line |
| Corrected.NewlinesKept | rle_tool.c:193-196 | the repaired decoder writes one newline per line that ended with one, and its length counts the other characters |
| RoundTrip.SplitNext | rle_tool.c:170 | a line with its newline that fits the buffer is one `fgets` line |
| RoundTrip.RenderedLineValid | rle_tool.c:14-51 | every line the encoder writes, with or without its newline, passes validation |
| RoundTrip.ScanRenderedToken | rle_tool.c:181 | the scan reads a written token's symbol and count and stops right after its digits |
| RoundTrip.RenderedLineDecodes | rle_tool.c:181-191 | the repaired loop reads a written line back as the expansion of its runs |
| RoundTrip.RenderedDecodes | rle_tool.c:170-197 | the repaired decoder reads a written run list back as its expansion, with the count of non-newline characters as length |
| RoundTrip.RoundTrip | rle_tool.c:94-197 | for every input the encoder accepts whose characters are printable or newlines, the repaired decoder gives the input back exactly, with its count of non-newline characters as length |
| Findings.RenderedLineStuck | rle_tool.c:188-190 | the C decoder never finishes on any written line whose first symbol is not a digit |
| Findings.ExampleCursorStuck | rle_tool.c:188-190 | `"aaa\n"` is encoded as `"a 3\n"`, which the C decoder never finishes |
| Findings.ExampleCursorRepaired | rle_tool.c:181-191 | the repaired decoder turns `"a 3\n"` back into `"aaa\n"` |
| Findings.DigitLineSkipped | rle_tool.c:181-190 | on any written line whose symbols are all digits, the first line or a later one that starts with its separator space, the C token loop writes the first run only and ends normally: the later runs are lost without an error |
| Findings.ExampleDigitTokensSkipped | rle_tool.c:181-196 | `"12"` is encoded as `"1 1 2 1"`, which the C decoder turns into `"1\n"`, while the repaired decoder gives `"12"` back |
| Findings.ExampleNewlineRule | rle_tool.c:193-196 | `"1\n\n"` is encoded as `"1 1\n\n"` and decoded by the C code as `"1\n"`; `"1"` is encoded as `"1 1"` and decoded as `"1\n"` |
| Findings.ExampleNewlineRepaired | rle_tool.c:193-196 | the repaired decoder turns `"1 1\n\n"` back into `"1\n\n"` and `"1 1"` into `"1"` |
| Findings.ExampleZeroLength | rle_tool.c:149-201 | a file holding only a newline is a successful decode with no output and length 0, the same value the C returns on failure |
| Findings.MeasureAgrees | rle_tool.c:112 | the code's digit allowance equals the exact digit count for every run list whose counts are below 1000 |
| Findings.CostUndercounts | rle_tool.c:112 | the allowance of a line never exceeds its exact digit count, and falls short of it exactly when some count has four digits or more |
| Findings.MeasureUndercounts | rle_tool.c:112 | the same for a whole run list: `compressed_length` is short exactly when some run is 1000 or longer |
| Findings.ExampleThousand | rle_tool.c:112 | the encoder writes a file of 1000 `a`s as `"a 1000"` and reports length 5, one less than the 6 characters it wrote |
| Findings.ExactMeasureCounts | rle_tool.c:108-132 | with exact digit counts, the length is the characters written less the separator spaces |
| Findings.CompressLengthExact | rle_tool.c:108-132 | for every successful encoding, the exactly counted length is the text length less one space per token after the first |

## Left out

- File handling (`fopen`, `fseek`, `ftell`, `rewind`, `fclose`) and the messages printed on failure: files are strings, and failures are a `Result` naming the reason.
- The return value's double duty: `decompress_file` returns `decompressed_length` (rle_tool.c:201), and `main` and `run_tests` treat 0 as failure (rle_tool.c:249, rle_tool.c:323-329). That 0 comes both from every early error return (rle_tool.c:146-175) and from a successful decode that writes no symbol, such as the file `"\n"` or `"1 0"`. The model's `Result` separates the two: `Decoder.Decompress` gives `Success(Decoded(_, 0))` for such a file (`Findings.ExampleZeroLength`), and the caller's reading of 0 as an error is not modelled.
- Partial output: the C leaves a partially written file when it stops at a space or at a refused line. The model fails atomically and returns no text.
- The `char` versus `EOF` comparison in the byte loop: a 0xFF byte, or a platform with unsigned `char`, changes where reading stops. Input is a string of characters with no such collision.
- `isprint` and `isdigit` on negative `char` values: the classes are modelled on ASCII.
- A character stands for one byte of the file. Characters above 0x7F, and multi-byte encodings, are outside the model; no contract requires ASCII input, but only ASCII characters are given their C meaning.
- `int` overflow of `count`, `compressed_length`, `decompressed_length` and `sscanf("%d")`: all are unbounded integers.
- A token loop that never ends is not run: the cycle is detected and reported as the `Diverges` error. `Decoder.RunLoop` is the literal loop, bounded by fuel.
- `run_tests` and `main`: test driver and command-line dispatch, not codec logic.
- Corrected.Decompress: reads every line whole, without the 1023-character `fgets` pieces, because the pieces are separate from the two repaired defects.
- RoundTrip.RoundTrip: requires every input character is printable or a newline, because the encoder accepts a tab or a control character that `validate_line` then refuses.

## Findings

| source | as written | input that shows it | evidently intended | confidence | as-written member | corrected member |
|---|---|---|---|---|---|---|
| rle_tool.c:188-190 | after a token the cursor skips only digits and spaces, so it never moves past a symbol that is not a digit, and `sscanf` matches the same token again and again | `"a 3\n"`, which the encoder writes for `"aaa\n"` | continue from where `sscanf` stopped reading, after the count | high, not executed | Findings.ExampleCursorStuck | Corrected.DecodeLine |
| rle_tool.c:188-190 | the same skip runs on over every following token whose symbol is a digit, so those runs are lost and no error is reported | `"1 1 2 1"`, which the encoder writes for `"12"`, decodes to `"1\n"` | continue from where `sscanf` stopped reading, after the count | high, not executed | Findings.ExampleDigitTokensSkipped | Corrected.DecodeLine |
| rle_tool.c:193-196 | `last_char_newline` starts at 1 and is never cleared, so a newline is written exactly when a line held a token: blank lines vanish, and a last line without a newline gets one | `"1 1\n\n"` (written for `"1\n\n"`) decodes to `"1\n"`; `"1 1"` (written for `"1"`) decodes to `"1\n"` | write a newline exactly where the encoded line had one | high, not executed | Findings.ExampleNewlineRule | Corrected.NewlinesKept |
| rle_tool.c:112 | the digit allowance is 3 for any count above 99 | a run of 1000 `a`s, written as `"a 1000"`, reported with 3 digits | count every digit of the count | medium, not executed | Findings.MeasureUndercounts | Findings.CompressLengthExact |

=== FILE: corrected.dfy ===
/** The decoding loop of `decompress_file` with its two defects repaired:
    after a token the cursor resumes where `sscanf` stopped reading (and
    passes the separating spaces), and a newline is written exactly when
    the line read ended with one. Lines are read whole. Everything else —
    the empty-file check, the validation gate, the expansion and the length
    count — is the code's. */
module Corrected {
  import opened CText
  import opened Results
  import Validator
  import Decoder

  /** One pass of the token loop: the cursor moves past the whole token. */
  function Step(p: string): (m: Decoder.Move)
    ensures m.Advance? ==> |m.next| < |p| && !IsSpace(m.symbol) && m.symbol != NUL
  {
    if Head(p) == NUL then Decoder.Halt
    else match Decoder.ScanToken(p)
      case Unmatched => Decoder.Halt
      case Scanned(c, n, rest) => Decoder.Advance(c, n, Skip(rest, Blank))
  }

  /** The token loop on one line; it always halts. */
  function DecodeLine(p: string): (r: Decoder.LineResult)
    ensures r.Done?
    ensures forall i :: 0 <= i < |r.output| ==> !IsSpace(r.output[i])
    decreases |p|
  {
    match Step(p)
    case Halt => Decoder.Done([], 0)
    case Advance(c, n, q) =>
      var r := DecodeLine(q);
      Decoder.Done(Repeat(c, n) + r.output, r.tokens + 1)
  }

  predicate EndsWithNewline(line: string) {
    |line| > 0 && line[|line| - 1] == '\n'
  }

  function DecodeLines(lines: seq<string>, index: nat): (r: Result<Decoder.Decoded, Decoder.DecodeError>)
    ensures r.Failure? ==> r.error.InvalidLine? && index <= r.error.index < index + |lines|
    decreases |lines|
  {
    if lines == [] then Success(Decoder.Decoded([], 0))
    else
      var verdict := Validator.Validate(lines[0]);
      if verdict != Validator.Valid then Failure(Decoder.InvalidLine(index, verdict))
      else
        var out := DecodeLine(lines[0]).output;
        var nl := if EndsWithNewline(lines[0]) then "\n" else "";
        match DecodeLines(lines[1..], index + 1)
        case Failure(e) => Failure(e)
        case Success(d) => Success(Decoder.Decoded(out + nl + d.text, |out| + d.length))
  }

  function Decompress(text: string): (r: Result<Decoder.Decoded, Decoder.DecodeError>)
    ensures r == Failure(Decoder.EmptyInput) <==> text == []
    ensures r.Failure? ==> r.error.EmptyInput? || r.error.InvalidLine?
  {
    if text == [] then Failure(Decoder.EmptyInput)
    else DecodeLines(Decoder.SplitLines(text, |text|), 0)
  }

  /** A failure names a line validation refused, with its reason. */
  lemma {:induction false} FailureBlames(lines: seq<string>, index: nat)
    ensures var r := DecodeLines(lines, index);
      r.Failure? ==> Validator.Validate(lines[r.error.index - index]) == r.error.reason != Validator.Valid
    decreases |lines|
  {
    var r := DecodeLines(lines, index);
    if r.Failure? && Validator.Validate(lines[0]) == Validator.Valid {
      FailureBlames(lines[1..], index + 1);
      assert lines[r.error.index - index] == lines[1..][r.error.index - (index + 1)];
    }
  }

  /** The repaired newline rule keeps every line break of the input: the
      output has one newline per input line that ended with one. */
  lemma {:induction false} NewlinesKept(lines: seq<string>, index: nat)
    requires DecodeLines(lines, index).Success?
    ensures Newlines(DecodeLines(lines, index).value.text) == NewlineEndings(lines)
    ensures var d := DecodeLines(lines, index).value; d.length + Newlines(d.text) == |d.text|
    decreases |lines|
  {
    if lines != [] {
      var out := DecodeLine(lines[0]).output;
      NewlinesKept(lines[1..], index + 1);
      assert '\n' !in multiset(out);
    }
  }

  /** Number of lines that end with a newline. */
  function NewlineEndings(lines: seq<string>): nat {
    if lines == [] then 0 else (if EndsWithNewline(lines[0]) then 1 else 0) + NewlineEndings(lines[1..])
  }
}

=== FILE: ctext.dfy ===
/** C string primitives the codec is built from: the NUL-terminated cursor
    view of a string, the `<ctype.h>` classes in the C locale, and the
    `while (...) ptr++;` skipping loops. A character stands for one byte of
    the file; the classes below are those of ASCII. */
module CText {

  /** The terminator a C cursor reads once the string is exhausted. */
  const NUL: char := '\0'

  /** What `*ptr` reads when `ptr` points at the start of `s`. An embedded
      NUL character reads the same as the end of the string, as in C. */
  function Head(s: string): char {
    if |s| == 0 then NUL else s[0]
  }

  /** `isprint` in the C locale: 0x20 through 0x7E. */
  predicate IsPrint(c: char) {
    ' ' <= c <= '~'
  }

  /** `isdigit`. */
  predicate IsDigit(c: char) {
    '0' <= c <= '9'
  }

  /** `isspace` in the C locale: space, \t, \n, \v, \f and \r. */
  predicate IsSpace(c: char) {
    c == ' ' || '\t' <= c <= '\r'
  }

  /** The character classes the codec's skipping loops walk over. */
  datatype CharClass = Blank | Digit | White | DigitOrBlank

  predicate In(c: char, k: CharClass) {
    match k
    case Blank => c == ' '
    case Digit => IsDigit(c)
    case White => IsSpace(c)
    case DigitOrBlank => IsDigit(c) || c == ' '
  }

  /** Every character of `s` is in class `k`. */
  predicate AllIn(s: string, k: CharClass) {
    forall i :: 0 <= i < |s| ==> In(s[i], k)
  }

  /** How far `while (In(*ptr, k)) ptr++;` moves the cursor: the length of
      the longest prefix of `s` whose characters are all in class `k`. */
  function Span(s: string, k: CharClass): (n: nat)
    ensures n <= |s|
    ensures AllIn(s[..n], k)
    ensures !In(Head(s[n..]), k)
    decreases |s|
  {
    if |s| > 0 && In(s[0], k) then
      var m := Span(s[1..], k);
      assert s[1..][m..] == s[1 + m..];
      assert s[..1 + m] == [s[0]] + s[1..][..m];
      1 + m
    else 0
  }

  /** Where the cursor stands after the skipping loop. */
  function Skip(s: string, k: CharClass): (r: string)
    ensures |r| <= |s| && (|r| == |s| ==> r == s)
    ensures !In(Head(r), k)
  {
    s[Span(s, k)..]
  }

  /** A prefix made only of class-`k` characters is skipped entirely. */
  lemma {:induction false} SpanOver(a: string, b: string, k: CharClass)
    requires AllIn(a, k)
    ensures Span(a + b, k) == |a| + Span(b, k)
    decreases |a|
  {
    if |a| > 0 {
      assert (a + b)[0] == a[0];
      assert (a + b)[1..] == a[1..] + b;
      SpanOver(a[1..], b, k);
    } else {
      assert a + b == b;
    }
  }

  lemma SkipOver(a: string, b: string, k: CharClass)
    requires AllIn(a, k)
    ensures Skip(a + b, k) == Skip(b, k)
  {
    SpanOver(a, b, k);
    assert (a + b)[|a| + Span(b, k)..] == b[Span(b, k)..];
  }

  /** A string starting outside class `k` is not moved over. */
  lemma SkipNone(s: string, k: CharClass)
    requires !In(Head(s), k)
    ensures Skip(s, k) == s
  {
    assert Span(s, k) == 0;
  }

  /** Concatenation regrouped to the left. */
  lemma Associate(a: string, b: string, c: string)
    ensures a + (b + c) == (a + b) + c
  {
  }

  lemma Reassociate(a: string, b: string, c: string, d: string)
    ensures a + (b + c + d) == (a + b) + c + d
  {
  }

  /** Concatenation nested to the right. */
  lemma Nest(a: string, b: string, c: string, d: string)
    ensures a + b + c + d == a + (b + (c + d))
  {
  }

  /** Substituting one split of a string into another. */
  lemma Regroup(s: string, a: string, t: string, b: string, c: string)
    requires s == a + t && t == b + c
    ensures s == (a + b) + c
  {
  }

  /** `c` written `n` times; nothing when `n` is zero or negative, as the
      decoder's `for (i = 0; i < count; i++)` loop does. */
  function Repeat(c: char, n: int): (r: string)
    ensures |r| == if n > 0 then n else 0
    ensures forall i :: 0 <= i < |r| ==> r[i] == c
    decreases if n > 0 then n else 0
  {
    if n <= 0 then [] else [c] + Repeat(c, n - 1)
  }

  /** `n` separator spaces. */
  function Spaces(n: nat): string {
    Repeat(' ', n)
  }

  /** Number of newline characters in `s`. */
  function Newlines(s: string): nat {
    multiset(s)['\n']
  }
}

=== FILE: decimal.dfy ===
/** Unsigned decimal numerals: what `fprintf("%d")` writes for a run count
    and what `sscanf("%d")` reads back from a run of digits. */
module Decimal {
  import opened CText

  function DigitChar(d: nat): (c: char)
    requires d < 10
    ensures IsDigit(c)
  {
    ('0' as int + d) as char
  }

  function DigitValue(c: char): (d: nat)
    requires IsDigit(c)
    ensures d < 10
  {
    c as int - '0' as int
  }

  /** The `%d` rendering of a non-negative count: one or more digits, with
      no leading zero unless the count itself is zero. */
  function Format(n: nat): (r: string)
    ensures |r| >= 1 && AllIn(r, Digit)
    ensures r[0] == '0' ==> n == 0
    decreases n
  {
    if n < 10 then [DigitChar(n)] else Format(n / 10) + [DigitChar(n % 10)]
  }

  /** The value of a string of digits, most significant first. */
  function Parse(ds: string): nat
    requires AllIn(ds, Digit)
    decreases |ds|
  {
    if ds == [] then 0 else 10 * Parse(ds[..|ds| - 1]) + DigitValue(ds[|ds| - 1])
  }

  /** Reading back what `%d` wrote gives the count again. */
  lemma {:induction false} ParseFormat(n: nat)
    ensures Parse(Format(n)) == n
    decreases n
  {
    var r := Format(n);
    if n >= 10 {
      ParseFormat(n / 10);
      assert r[..|r| - 1] == Format(n / 10);
    }
  }

  /** How many digits `%d` writes: one below 10, two below 100, three below
      1000, at least four from 1000 on. */
  lemma {:induction false} FormatLength(n: nat)
    ensures n < 10 ==> |Format(n)| == 1
    ensures 10 <= n < 100 ==> |Format(n)| == 2
    ensures 100 <= n < 1000 ==> |Format(n)| == 3
    ensures 1000 <= n ==> |Format(n)| >= 4
    decreases n
  {
    if n >= 10 {
      FormatLength(n / 10);
    }
  }
}

=== FILE: decoder.dfy ===
/** `decompress_file` (rle_tool.c) as the C code does it: the compressed
    text is read in `fgets` lines, every line must pass `validate_line`, and
    the tokens of the line are expanded by a `sscanf` loop whose cursor
    moves over digits and spaces only. This module keeps the code's
    behaviour where it departs from the format's intent — the cursor that
    stops moving on a symbol that is not a digit and runs on over later
    tokens whose symbols are digits, and the newline rule that drops blank
    lines. */
module Decoder {
  import opened CText
  import opened Results
  import Decimal
  import Validator

  /** The size of the `line` buffer handed to `fgets`; one character of it
      holds the terminating NUL. */
  const BufferSize: nat := 1024

  // ------------------------------------------------------------- fgets

  /** How many characters one `fgets` call with room for `cap` characters
      takes from `s`: up to and including the first newline, no more than
      `cap`, and whatever is left at the end of the file. */
  function LineLength(s: string, cap: nat): (k: nat)
    requires cap >= 1
    ensures s == [] ==> k == 0
    ensures s != [] ==> 1 <= k <= |s| && k <= cap
    ensures forall i :: 0 <= i < k - 1 ==> s[i] != '\n'
    ensures 0 < k < |s| && k < cap ==> s[k - 1] == '\n'
    decreases |s|
  {
    if s == [] then 0
    else if s[0] == '\n' || cap == 1 then 1
    else 1 + LineLength(s[1..], cap - 1)
  }

  function Concat(ls: seq<string>): string {
    if ls == [] then [] else ls[0] + Concat(ls[1..])
  }

  /** The successive `fgets` lines of `s`: together they are exactly `s`,
      none is empty and none is longer than the buffer allows. */
  function SplitLines(s: string, cap: nat): (ls: seq<string>)
    requires cap >= 1
    ensures Concat(ls) == s
    ensures forall i :: 0 <= i < |ls| ==> 1 <= |ls[i]| <= cap
    decreases |s|
  {
    if s == [] then []
    else
      var k := LineLength(s, cap);
      assert s[..k] + s[k..] == s;
      [s[..k]] + SplitLines(s[k..], cap)
  }

  // ------------------------------------------------------------- sscanf

  /** What `sscanf(ptr, " %c %d", &current_char, &count)` does at the start
      of `s`: both conversions succeed, giving the symbol, the signed count
      and where the scan stopped — or it returns less than 2. */
  datatype Scan = Scanned(symbol: char, count: int, rest: string) | Unmatched

  function ScanToken(s: string): (r: Scan)
    ensures r.Scanned? ==> |r.rest| < |s| && !IsDigit(Head(r.rest))
    ensures r.Scanned? ==> !IsSpace(r.symbol) && r.symbol != NUL
    decreases |s|
  {
    if |s| > 0 && IsSpace(s[0]) then ScanToken(s[1..])
    else if Head(s) == NUL then Unmatched
    else ScanCount(s[0], s[1..])
  }

  /** The ` %d` half, after `%c` has taken `c`: white space, an optional
      sign, and at least one digit. */
  function ScanCount(c: char, t: string): (r: Scan)
    ensures r.Scanned? ==> |r.rest| < |t| && !IsDigit(Head(r.rest)) && r.symbol == c
    decreases |t|
  {
    if |t| > 0 && IsSpace(t[0]) then ScanCount(c, t[1..])
    else if Head(t) == '-' || Head(t) == '+' then ScanDigits(c, t[1..], Head(t) == '-')
    else ScanDigits(c, t, false)
  }

  /** The digits of ` %d`, negated after a minus sign. */
  function ScanDigits(c: char, d: string, negative: bool): (r: Scan)
    ensures r.Scanned? ==> |r.rest| < |d| && !IsDigit(Head(r.rest)) && r.symbol == c
  {
    if !IsDigit(Head(d)) then Unmatched
    else
      var n := Span(d, Digit);
      var v := Decimal.Parse(d[..n]);
      Scanned(c, if negative then -(v as int) else v, d[n..])
  }

  /** The count read is, up to its sign, the value of a run of digits of
      `s` that ends at position `k`. */
  predicate CountOf(s: string, k: nat, count: int)
    requires k <= |s|
  {
    exists j :: 0 <= j < k && AllIn(s[j..k], Digit) &&
      (count == Decimal.Parse(s[j..k]) as int || count == -(Decimal.Parse(s[j..k]) as int))
  }

  // --------------------------------------------------------- token loop

  /** One pass of the `while (*ptr && sscanf(...) == 2)` loop. */
  datatype Move = Halt | Advance(symbol: char, count: int, next: string)

  /** At cursor `p`: stop, or expand the matched token and move the cursor
      over the digits and spaces that start at `p` — not over the symbol
      `sscanf` just read. The cursor stays where it is exactly when it sits
      on a character that is neither a digit nor a space. */
  function Step(p: string): (m: Move)
    ensures m.Advance? ==> |m.next| <= |p| && (|m.next| == |p| ==> m.next == p)
    ensures m.Advance? ==> (|m.next| == |p| <==> !In(Head(p), DigitOrBlank))
    ensures m.Advance? ==> !IsSpace(m.symbol) && m.symbol != NUL
  {
    if Head(p) == NUL then Halt
    else match ScanToken(p)
      case Unmatched => Halt
      case Scanned(c, n, _) => Advance(c, n, Skip(p, DigitOrBlank))
  }

  /** The loop run for at most `fuel` passes: the symbols written and the
      number of tokens matched, or `OutOfFuel` if it is still going. */
  datatype Outcome = Finished(output: string, tokens: nat) | OutOfFuel

  function RunLoop(p: string, fuel: nat): Outcome
    decreases fuel
  {
    match Step(p)
    case Halt => Finished([], 0)
    case Advance(c, n, q) =>
      if fuel == 0 then OutOfFuel
      else match RunLoop(q, fuel - 1)
        case OutOfFuel => OutOfFuel
        case Finished(o, k) => Finished(Repeat(c, n) + o, k + 1)
  }

  /** The loop on one line, run to its end: it either halts, or reaches a
      pass that leaves the cursor where it was, from which the C loop
      repeats the same pass forever. */
  datatype LineResult = Done(output: string, tokens: nat) | Stuck(symbol: char, count: int)

  function DecodeLine(p: string): (r: LineResult)
    ensures r.Done? ==> forall i :: 0 <= i < |r.output| ==> !IsSpace(r.output[i])
    ensures r.Done? && r.tokens == 0 ==> r.output == []
    decreases |p|
  {
    match Step(p)
    case Halt => Done([], 0)
    case Advance(c, n, q) =>
      if |q| == |p| then Stuck(c, n)
      else match DecodeLine(q)
        case Stuck(c', n') => Stuck(c', n')
        case Done(o, k) => Done(Repeat(c, n) + o, k + 1)
  }

  // --------------------------------------------------------- whole file

  datatype DecodeError =
    | EmptyInput                                          // the file has length 0
    | InvalidLine(index: nat, reason: Validator.Verdict)  // `validate_line` rejects line `index`
    | Diverges(index: nat)                                // the token loop never ends on line `index`

  /** The decoded text and `decompressed_length`, the number of symbols
      written. */
  datatype Decoded = Decoded(text: string, length: nat)

  /** The `while (fgets(...))` loop from line number `index` on;
      `lastNewline` is `last_char_newline`, which starts at 1 and is only
      ever set to 1 again. */
  function DecodeLines(lines: seq<string>, index: nat, lastNewline: bool): (r: Result<Decoded, DecodeError>)
    ensures r.Failure? ==> (r.error.InvalidLine? || r.error.Diverges?) && index <= r.error.index < index + |lines|
    decreases |lines|
  {
    if lines == [] then Success(Decoded([], 0))
    else
      var verdict := Validator.Validate(lines[0]);
      if verdict != Validator.Valid then Failure(InvalidLine(index, verdict))
      else match DecodeLine(lines[0])
        case Stuck(_, _) => Failure(Diverges(index))
        case Done(out, k) =>
          var writeNewline := k > 0 || !lastNewline;
          var nl := if writeNewline then "\n" else "";
          match DecodeLines(lines[1..], index + 1, lastNewline || writeNewline)
          case Failure(e) => Failure(e)
          case Success(d) => Success(Decoded(out + nl + d.text, |out| + d.length))
  }

  function Decompress(text: string): (r: Result<Decoded, DecodeError>)
    ensures r == Failure(EmptyInput) <==> text == []
  {
    if text == [] then Failure(EmptyInput)
    else DecodeLines(SplitLines(text, BufferSize - 1), 0, true)
  }

  // ------------------------------------------------------------- lemmas

  /** A pass that does not move the cursor is repeated for as long as the
      fuel lasts. */
  lemma {:induction false} StuckForever(p: string, c: char, n: int, fuel: nat)
    requires Step(p) == Advance(c, n, p)
    ensures RunLoop(p, fuel) == OutOfFuel
    decreases fuel
  {
    if fuel > 0 {
      StuckForever(p, c, n, fuel - 1);
    }
  }

  lemma RunLoopStep(p: string, fuel: nat)
    requires fuel > 0 && Step(p).Advance?
    ensures var m := Step(p); var r := RunLoop(m.next, fuel - 1);
      RunLoop(p, fuel) == if r.OutOfFuel? then OutOfFuel else Finished(Repeat(m.symbol, m.count) + r.output, r.tokens + 1)
  {
  }

  lemma DecodeLineStep(p: string)
    requires Step(p).Advance? && |Step(p).next| < |p|
    ensures var m := Step(p); var r := DecodeLine(m.next);
      DecodeLine(p) == if r.Stuck? then r else Done(Repeat(m.symbol, m.count) + r.output, r.tokens + 1)
  {
  }

  /** `fgets` stops at the first newline: a newline is only ever the last
      character of a line, and every line but the last ends with one or
      fills the buffer. */
  lemma {:induction false} SplitLinesBreaks(s: string, cap: nat)
    requires cap >= 1
    ensures var ls := SplitLines(s, cap);
      && (forall i, j :: 0 <= i < |ls| && 0 <= j < |ls[i]| - 1 ==> ls[i][j] != '\n')
      && (forall i :: 0 <= i < |ls| - 1 ==> ls[i][|ls[i]| - 1] == '\n' || |ls[i]| == cap)
  {
    var ls := SplitLines(s, cap);
    NewlineLast(s, cap);
    FullOrNewline(s, cap);
    assert NewlinesLast(ls) && BrokenAt(ls, cap);
  }

  /** A newline, if any, is a line's last character. */
  predicate NewlinesLast(ls: seq<string>) {
    forall i, j :: 0 <= i < |ls| && 0 <= j < |ls[i]| - 1 ==> ls[i][j] != '\n'
  }

  /** Every line but the last ends with a newline or is `cap` long. */
  predicate BrokenAt(ls: seq<string>, cap: nat) {
    forall i :: 0 <= i < |ls| - 1 ==> ls[i] != [] && (ls[i][|ls[i]| - 1] == '\n' || |ls[i]| == cap)
  }

  lemma {:induction false} NewlineLast(s: string, cap: nat)
    requires cap >= 1
    ensures NewlinesLast(SplitLines(s, cap))
    decreases |s|
  {
    if s != [] {
      var k := LineLength(s, cap);
      var more := SplitLines(s[k..], cap);
      var ls := SplitLines(s, cap);
      assert ls == [s[..k]] + more;
      NewlineLast(s[k..], cap);
      forall i, j | 0 <= i < |ls| && 0 <= j < |ls[i]| - 1 ensures ls[i][j] != '\n' {
        if i > 0 {
          assert ls[i] == more[i - 1];
          assert more[i - 1][j] != '\n';
        } else {
          assert ls[0] == s[..k];
          assert ls[0][j] == s[j];
          assert s[j] != '\n';
        }
      }
    }
  }

  lemma {:induction false} FullOrNewline(s: string, cap: nat)
    requires cap >= 1
    ensures BrokenAt(SplitLines(s, cap), cap)
    decreases |s|
  {
    if s != [] {
      var k := LineLength(s, cap);
      var more := SplitLines(s[k..], cap);
      var ls := SplitLines(s, cap);
      assert ls == [s[..k]] + more;
      FullOrNewline(s[k..], cap);
      if more != [] {
        FirstLineBreak(s, cap);
      }
      forall i | 0 <= i < |ls| - 1 ensures ls[i] != [] && (ls[i][|ls[i]| - 1] == '\n' || |ls[i]| == cap) {
        if i > 0 {
          assert ls[i] == more[i - 1];
        }
      }
    }
  }

  /** A first line followed by more text ended at a newline or filled the
      buffer. */
  lemma FirstLineBreak(s: string, cap: nat)
    requires cap >= 1 && LineLength(s, cap) < |s|
    ensures var k := LineLength(s, cap); s[..k][k - 1] == '\n' || k == cap
  {
  }

  /** The digits of ` %d`: the scan matches exactly when a digit comes
      first, reads the whole run of digits, and stops right after it. */
  lemma DigitsRead(c: char, d: string, negative: bool)
    ensures var r := ScanDigits(c, d, negative);
      && (r.Scanned? <==> IsDigit(Head(d)))
      && (r.Scanned? ==> var k := |d| - |r.rest|;
            && d == d[..k] + r.rest && AllIn(d[..k], Digit)
            && r.count == if negative then -(Decimal.Parse(d[..k]) as int) else Decimal.Parse(d[..k]) as int)
  {
    var r := ScanDigits(c, d, negative);
    if r.Scanned? {
      var n := Span(d, Digit);
      assert |d| - |r.rest| == n;
      assert d == d[..n] + d[n..];
    }
  }

  /** ` %d`, after the spaces and an optional sign: the scan stops right
      after a digit, and the count is the value of a run of digits ending
      there. */
  lemma {:induction false} CountRead(c: char, t: string)
    ensures var r := ScanCount(c, t);
      r.Scanned? ==> var k := |t| - |r.rest|;
        t[k..] == r.rest && IsDigit(t[k - 1]) && CountOf(t, k, r.count)
    decreases |t|
  {
    var r := ScanCount(c, t);
    if r.Scanned? {
      if |t| > 0 && IsSpace(t[0]) {
        var u := t[1..];
        assert r == ScanCount(c, u);
        CountRead(c, u);
        var k := |t| - |r.rest|;
        assert |u| - |r.rest| == k - 1 && 2 <= k;
        ShiftRead(t, k, r.rest, r.count);
      } else {
        DigitsFirst(c, t);
      }
    }
  }

  /** ` %d` where no space comes first: an optional sign, then the digits. */
  lemma DigitsFirst(c: char, t: string)
    requires !(|t| > 0 && IsSpace(t[0]))
    ensures var r := ScanCount(c, t);
      r.Scanned? ==> var k := |t| - |r.rest|;
        t[k..] == r.rest && IsDigit(t[k - 1]) && CountOf(t, k, r.count)
  {
    var r := ScanCount(c, t);
    if r.Scanned? {
      var k := |t| - |r.rest|;
      var signed := Head(t) == '-' || Head(t) == '+';
      var a := if signed then 1 else 0;
      var negative := signed && Head(t) == '-';
      assert r == ScanDigits(c, t[a..], negative);
      DigitsRead(c, t[a..], negative);
      DigitsAt(t, a, k, r.rest, r.count, negative);
    }
  }

  /** `" %c %d"` as a whole: the scan stops right after a digit, and the
      count is, up to its sign, the value of a run of digits ending there. */
  lemma {:induction false} TokenRead(s: string)
    ensures var r := ScanToken(s);
      r.Scanned? ==> var k := |s| - |r.rest|;
        s[k..] == r.rest && IsDigit(s[k - 1]) && CountOf(s, k, r.count)
    decreases |s|
  {
    var r := ScanToken(s);
    if r.Scanned? {
      var k := |s| - |r.rest|;
      if |s| > 0 && IsSpace(s[0]) {
        assert r == ScanToken(s[1..]);
        TokenRead(s[1..]);
      } else {
        assert r == ScanCount(s[0], s[1..]);
        CountRead(s[0], s[1..]);
      }
      ShiftRead(s, k, r.rest, r.count);
    }
  }

  /** A read of `t[1..]` is a read of `t` one character later. */
  lemma ShiftRead(t: string, k: nat, rest: string, count: int)
    requires 2 <= k <= |t|
    requires t[1..][k - 1..] == rest && IsDigit(t[1..][k - 2]) && CountOf(t[1..], k - 1, count)
    ensures t[k..] == rest && IsDigit(t[k - 1]) && CountOf(t, k, count)
  {
    var u := t[1..];
    var j :| 0 <= j < k - 1 && AllIn(u[j..k - 1], Digit) &&
      (count == Decimal.Parse(u[j..k - 1]) as int || count == -(Decimal.Parse(u[j..k - 1]) as int));
    assert u[j..k - 1] == t[j + 1..k];
  }

  /** A run of digits read from `t[a..]` is a count of `t`. */
  lemma DigitsAt(t: string, a: nat, k: nat, rest: string, count: int, negative: bool)
    requires a < k <= |t|
    requires var d := t[a..]; d == d[..k - a] + rest && AllIn(d[..k - a], Digit)
    requires var ds := t[a..][..k - a]; count == if negative then -(Decimal.Parse(ds) as int) else Decimal.Parse(ds) as int
    ensures t[k..] == rest && IsDigit(t[k - 1]) && CountOf(t, k, count)
  {
    var d := t[a..];
    assert d[..k - a] == t[a..k];
    assert t == t[..a] + d;
    assert t[k - 1] == d[..k - a][k - a - 1];
  }

  /** One pass moves the cursor over exactly the digits and spaces that
      start at it, and over nothing else. */
  lemma StepMoves(p: string)
    ensures var m := Step(p);
      m.Advance? ==> var k := |p| - |m.next|;
        p == p[..k] + m.next && AllIn(p[..k], DigitOrBlank) && !In(Head(m.next), DigitOrBlank)
  {
    var m := Step(p);
    if m.Advance? {
      var n := Span(p, DigitOrBlank);
      assert |p| - |m.next| == n;
      assert p == p[..n] + p[n..];
    }
  }

  /** A failure is the fault of the line it names: a line validation
      refused, with the validator's reason, or an accepted line whose loop
      never ends. */
  lemma {:induction false} FailureBlames(lines: seq<string>, index: nat, lastNewline: bool)
    ensures var r := DecodeLines(lines, index, lastNewline);
      && (r.Failure? && r.error.InvalidLine? ==>
            Validator.Validate(lines[r.error.index - index]) == r.error.reason != Validator.Valid)
      && (r.Failure? && r.error.Diverges? ==>
            Validator.Validate(lines[r.error.index - index]) == Validator.Valid &&
            DecodeLine(lines[r.error.index - index]).Stuck?)
  {
    InvalidBlamed(lines, index, lastNewline);
    StuckBlamed(lines, index, lastNewline);
  }

  lemma {:induction false} InvalidBlamed(lines: seq<string>, index: nat, lastNewline: bool)
    ensures var r := DecodeLines(lines, index, lastNewline);
      r.Failure? && r.error.InvalidLine? ==>
        Validator.Validate(lines[r.error.index - index]) == r.error.reason != Validator.Valid
    decreases |lines|
  {
    var r := DecodeLines(lines, index, lastNewline);
    if r.Failure? && lines != [] && Validator.Validate(lines[0]) == Validator.Valid && DecodeLine(lines[0]).Done? {
      FailurePassesOn(lines, index, lastNewline);
      InvalidBlamed(lines[1..], index + 1, true);
      var j := r.error.index - index;
      assert lines[j] == lines[1..][j - 1];
    }
  }

  lemma {:induction false} StuckBlamed(lines: seq<string>, index: nat, lastNewline: bool)
    ensures var r := DecodeLines(lines, index, lastNewline);
      r.Failure? && r.error.Diverges? ==>
        Validator.Validate(lines[r.error.index - index]) == Validator.Valid &&
        DecodeLine(lines[r.error.index - index]).Stuck?
    decreases |lines|
  {
    var r := DecodeLines(lines, index, lastNewline);
    if r.Failure? && lines != [] && Validator.Validate(lines[0]) == Validator.Valid && DecodeLine(lines[0]).Done? {
      FailurePassesOn(lines, index, lastNewline);
      StuckBlamed(lines[1..], index + 1, true);
      var j := r.error.index - index;
      assert lines[j] == lines[1..][j - 1];
    }
  }

  /** A failure after a first line that decodes is a failure of the rest. */
  lemma FailurePassesOn(lines: seq<string>, index: nat, lastNewline: bool)
    requires lines != [] && Validator.Validate(lines[0]) == Validator.Valid && DecodeLine(lines[0]).Done?
    requires DecodeLines(lines, index, lastNewline).Failure?
    ensures DecodeLines(lines[1..], index + 1, true) == DecodeLines(lines, index, lastNewline)
  {
  }

  /** The literal loop and the cycle-detecting one agree: the loop finishes
      within `fuel` passes exactly when the line halts after no more than
      `fuel` tokens, with the same output; on a stuck line it never
      finishes. */
  lemma {:induction false} LoopAgrees(p: string, fuel: nat)
    ensures RunLoop(p, fuel).Finished? <==> DecodeLine(p).Done? && DecodeLine(p).tokens <= fuel
    ensures RunLoop(p, fuel).Finished? ==>
              RunLoop(p, fuel).output == DecodeLine(p).output && RunLoop(p, fuel).tokens == DecodeLine(p).tokens
    decreases |p|
  {
    var m := Step(p);
    if m.Advance? {
      if |m.next| == |p| {
        StuckForever(p, m.symbol, m.count, fuel);
      } else if fuel > 0 {
        var q := m.next;
        var e := Repeat(m.symbol, m.count);
        LoopAgrees(q, fuel - 1);
        RunLoopStep(p, fuel);
        DecodeLineStep(p);
      } else {
        assert RunLoop(p, fuel) == OutOfFuel;
      }
    }
  }

  /** A line that passes validation but whose first token's symbol is not a
      digit never finishes: `sscanf` reads the symbol, but the cursor cannot
      move over it, so the same token is matched again and again. */
  lemma StuckOnNonDigitSymbol(line: string)
    requires Validator.Validate(line) == Validator.Valid
    requires var t := Skip(line, Blank); !Validator.LineEnd(t) && !IsDigit(t[0])
    ensures DecodeLine(line).Stuck?
  {
    var t := Skip(line, Blank);
    var k := Span(line, Blank);
    assert Validator.AtToken(t) == Validator.Valid;
    TokenStuck(t);
    BlankPrefix(line);
    if k > 0 {
      BlanksThenStuck(k, t);
    } else {
      assert line == t;
    }
  }

  /** At an accepted token whose symbol is not a digit, the pass matches and
      leaves the cursor in place. */
  lemma TokenStuck(t: string)
    requires Validator.AtToken(t) == Validator.Valid
    requires !Validator.LineEnd(t) && t[0] != ' ' && !IsDigit(t[0])
    ensures Step(t).Advance? && Step(t).next == t && DecodeLine(t).Stuck?
  {
    assert IsPrint(t[0]) && t[1] == ' ' && Validator.AtDigits(t[2..]) == Validator.Valid;
    assert IsDigit(Head(t[2..]));
    ScanAtToken(t);
    SkipNone(t, DigitOrBlank);
  }

  /** Leading spaces are passed over once; then the cursor stops at `t`. */
  lemma BlanksThenStuck(k: nat, t: string)
    requires k > 0 && t != [] && t[0] != ' ' && !IsDigit(t[0])
    requires Step(t).Advance? && Step(t).next == t && DecodeLine(t).Stuck?
    ensures DecodeLine(Spaces(k) + t).Stuck?
  {
    var line := Spaces(k) + t;
    ScanSpaces(k, t);
    SkipOver(Spaces(k), t, DigitOrBlank);
    SkipNone(t, DigitOrBlank);
    assert line[0] == ' ';
    assert Step(line).Advance? && Step(line).next == t;
  }

  /** A line's leading blanks are spaces followed by what `Skip` leaves. */
  lemma BlankPrefix(line: string)
    ensures line == Spaces(Span(line, Blank)) + Skip(line, Blank)
  {
    var k := Span(line, Blank);
    assert line[..k] == Spaces(k) by {
      forall i | 0 <= i < k ensures line[..k][i] == Spaces(k)[i] {
        assert In(line[..k][i], Blank);
      }
    }
    assert line == line[..k] + line[k..];
  }

  /** `sscanf`'s leading white-space directive passes over spaces. */
  lemma {:induction false} ScanSpaces(n: nat, t: string)
    ensures ScanToken(Spaces(n) + t) == ScanToken(t)
    decreases n
  {
    if n > 0 {
      assert (Spaces(n) + t)[1..] == Spaces(n - 1) + t;
      ScanSpaces(n - 1, t);
    } else {
      assert Spaces(n) + t == t;
    }
  }

  /** On a token that passed validation, `sscanf` matches both conversions. */
  lemma ScanAtToken(t: string)
    requires |t| >= 3 && IsPrint(t[0]) && t[0] != ' ' && t[1] == ' ' && IsDigit(t[2])
    ensures ScanToken(t).Scanned? && ScanToken(t).symbol == t[0]
  {
    assert t[1..][1..] == t[2..];
    assert ScanCount(t[0], t[2..]).Scanned?;
  }

  /** `decompressed_length` counts the symbols written and nothing else:
      with the newlines it makes up the whole output. */
  lemma {:induction false} LengthCountsSymbols(lines: seq<string>, index: nat, lastNewline: bool)
    requires DecodeLines(lines, index, lastNewline).Success?
    ensures var d := DecodeLines(lines, index, lastNewline).value; d.length + Newlines(d.text) == |d.text|
    decreases |lines|
  {
    if lines != [] {
      var out := DecodeLine(lines[0]).output;
      var k := DecodeLine(lines[0]).tokens;
      var writeNewline := k > 0 || !lastNewline;
      LengthCountsSymbols(lines[1..], index + 1, lastNewline || writeNewline);
      assert '\n' !in multiset(out);
    }
  }

  /** Number of lines on which the token loop matched at least one token. */
  function TokenLines(lines: seq<string>): nat {
    if lines == [] then 0
    else (if DecodeLine(lines[0]).Done? && DecodeLine(lines[0]).tokens > 0 then 1 else 0) + TokenLines(lines[1..])
  }

  /** Since `last_char_newline` is never cleared, a newline is written after
      a line exactly when the line held a token: blank lines vanish, and a
      last line without a newline gets one. */
  lemma {:induction false} NewlinePerTokenLine(lines: seq<string>, index: nat, d: Decoded)
    requires DecodeLines(lines, index, true) == Success(d)
    ensures Newlines(d.text) == TokenLines(lines)
    decreases |lines|
  {
    if lines != [] {
      var out := DecodeLine(lines[0]).output;
      var rest := DecodeLines(lines[1..], index + 1, true).value;
      NewlinePerTokenLine(lines[1..], index + 1, rest);
      assert '\n' !in multiset(out);
    }
  }

  /** Decoding succeeds only if every line passes validation and every
      line's token loop halts. */
  lemma {:induction false} SuccessMeansAllValid(lines: seq<string>, index: nat, lastNewline: bool)
    requires DecodeLines(lines, index, lastNewline).Success?
    ensures forall j :: 0 <= j < |lines| ==>
              Validator.Validate(lines[j]) == Validator.Valid && DecodeLine(lines[j]).Done?
    decreases |lines|
  {
    if lines != [] {
      var k := DecodeLine(lines[0]).tokens;
      SuccessMeansAllValid(lines[1..], index + 1, lastNewline || k > 0 || !lastNewline);
      forall j | 0 < j < |lines|
        ensures Validator.Validate(lines[j]) == Validator.Valid && DecodeLine(lines[j]).Done?
      {
        assert lines[j] == lines[1..][j - 1];
      }
    }
  }

  /** The first line that fails validation, when every line before it
      decodes, is the one reported, with the validator's reason. */
  lemma {:induction false} FirstInvalidReported(lines: seq<string>, index: nat, lastNewline: bool, j: nat)
    requires j < |lines| && Validator.Validate(lines[j]) != Validator.Valid
    requires forall m :: 0 <= m < j ==> Validator.Validate(lines[m]) == Validator.Valid && DecodeLine(lines[m]).Done?
    ensures DecodeLines(lines, index, lastNewline) == Failure(InvalidLine(index + j, Validator.Validate(lines[j])))
    decreases j
  {
    if j > 0 {
      var k := DecodeLine(lines[0]).tokens;
      forall m | 0 <= m < j - 1
        ensures Validator.Validate(lines[1..][m]) == Validator.Valid && DecodeLine(lines[1..][m]).Done?
      {
        assert lines[1..][m] == lines[m + 1];
      }
      FirstInvalidReported(lines[1..], index + 1, lastNewline || k > 0 || !lastNewline, j - 1);
    }
  }
}

=== FILE: encoder.dfy ===
/** The run-detection loop of `compress_file` (rle_tool.c), with the file
    handling removed: the input file's bytes are a string, the output file is
    the returned text, and the return value is the reported length. */
module Encoder {
  import opened CText
  import opened Results
  import opened Runs

  /** Why `compress_file` returned 0. */
  datatype EncodeError =
    | EmptyInput      // the input file has no bytes
    | LeadingNewline  // the first byte is a newline: nothing to compress
    | ForbiddenSpace  // a space occurs in the input

  /** A successful encoding: the text written to the output file, the
      returned `compressed_length`, and the run list the text renders. */
  datatype Encoded = Encoded(text: string, length: nat, lines: seq<Line>)

  /** The loop state. `prev` and `count` are `prev_char` and `count`, `out`
      is what has been written so far and `length` is `compressed_length`.
      `lines` is the abstract result: the runs written so far, by line. */
  datatype State = State(prev: char, count: nat, out: string, length: nat, lines: seq<Line>)

  /** The state after reading the first byte. */
  function Start(c: char): State {
    State(c, 1, [], 0, [[]])
  }

  /** Write the pending run `(prev, count)`, with a separating space unless
      nothing has been counted yet. */
  function Emit(st: State): (r: State)
    requires |st.lines| >= 1
    ensures |r.lines| == |st.lines|
  {
    var t := Token(st.prev, st.count);
    st.(out := st.out + (if st.length > 0 then " " else "") + TokenText(t),
        length := st.length + 2 + Width(st.count),
        lines := AppendToken(st.lines, t))
  }

  /** One iteration of the `while (fgetc ...)` loop on a byte that is not a
      space. */
  function Step(st: State, c: char): (r: State)
    requires |st.lines| >= 1
    ensures |r.lines| >= 1
  {
    if c == st.prev && c != '\n' then
      st.(count := st.count + 1)
    else
      var written := if st.prev != '\n' then Emit(st) else st;
      var broken :=
        if c == '\n' then
          written.(out := written.out + "\n", length := written.length + 1, lines := written.lines + [[]])
        else written;
      broken.(prev := c, count := 1)
  }

  /** After end of file: write the pending run unless the last byte was a
      newline. */
  function Finish(st: State): Encoded
    requires |st.lines| >= 1
  {
    var last := if st.prev != '\n' then Emit(st) else st;
    Encoded(last.out, last.length, last.lines)
  }

  /** The loop over the bytes after the first; a space aborts it. */
  function Run(st: State, rest: string): (r: Result<Encoded, EncodeError>)
    requires |st.lines| >= 1
    ensures r.Failure? <==> ' ' in rest
    ensures r.Failure? ==> r.error == ForbiddenSpace
    decreases |rest|
  {
    if rest == [] then Success(Finish(st))
    else if rest[0] == ' ' then Failure(ForbiddenSpace)
    else
      assert rest == [rest[0]] + rest[1..];
      Run(Step(st, rest[0]), rest[1..])
  }

  /** `compress_file` on the input text `s`. It fails exactly when the input
      is empty, starts with a newline, or contains a space, and the reason
      reported is the first of these checks that fires. */
  function Compress(s: string): (r: Result<Encoded, EncodeError>)
    ensures r.Failure? <==> s == [] || s[0] == '\n' || ' ' in s
    ensures r.Failure? ==> r.error == (if s == [] then EmptyInput else if s[0] == '\n' then LeadingNewline else ForbiddenSpace)
  {
    if |s| == 0 then Failure(EmptyInput)
    else if s[0] == '\n' then Failure(LeadingNewline)
    else if s[0] == ' ' then Failure(ForbiddenSpace)
    else
      assert s == [s[0]] + s[1..];
      Run(Start(s[0]), s[1..])
  }

  // ------------------------------------------------------------ correctness

  /** All runs the input so far stands for: the written ones plus the
      pending `(prev, count)` unless the last byte was a newline. */
  function Pending(st: State): seq<Line>
    requires |st.lines| >= 1
  {
    if st.prev == '\n' then st.lines else AppendToken(st.lines, Token(st.prev, st.count))
  }

  /** What the loop keeps true after reading the prefix `p` of the input. */
  ghost predicate Inv(st: State, p: string) {
    && |p| >= 1 && |st.lines| >= 1
    && st.prev == p[|p| - 1]
    && st.prev != ' '
    && st.count >= 1
    && ExpandAll(Pending(st)) == p
    && WellFormed(Pending(st))
    && (st.prev == '\n' ==> st.lines[|st.lines| - 1] == [] && |st.lines| >= 2)
    && (TokenCount(st.lines) == 0 ==> |st.lines| == 1)
    && st.out == Render(st.lines)
    && st.length == Measure(st.lines)
  }

  /** Each token adds 3 to 5 to `compressed_length`: symbol, space and a
      digit allowance of 1 to 3. */
  lemma {:induction false} CostBounds(l: Line)
    ensures 3 * |l| <= Cost(l) <= 5 * |l|
    decreases |l|
  {
    if l != [] {
      CostBounds(l[1..]);
    }
  }

  /** `compressed_length` of a run list: 3 to 5 per token plus one per
      newline. */
  lemma {:induction false} MeasureBounds(ls: seq<Line>)
    requires |ls| >= 1
    ensures 3 * TokenCount(ls) + |ls| - 1 <= Measure(ls) <= 5 * TokenCount(ls) + |ls| - 1
    decreases |ls|
  {
    CostBounds(ls[0]);
    if |ls| > 1 {
      MeasureBounds(ls[1..]);
    } else {
      assert TokenCount(ls) == |ls[0]| by {
        assert ls[1..] == [];
      }
    }
  }

  /** `compressed_length` is positive exactly when a token has been written. */
  lemma {:induction false} MeasurePositive(ls: seq<Line>)
    requires |ls| >= 1
    requires TokenCount(ls) == 0 ==> |ls| == 1
    ensures Measure(ls) > 0 <==> TokenCount(ls) > 0
  {
    MeasureBounds(ls);
  }

  lemma EmitKeeps(st: State)
    requires |st.lines| >= 1
    requires st.out == Render(st.lines) && st.length == Measure(st.lines)
    requires TokenCount(st.lines) == 0 ==> |st.lines| == 1
    ensures Emit(st).lines == AppendToken(st.lines, Token(st.prev, st.count))
    ensures Emit(st).out == Render(Emit(st).lines)
    ensures Emit(st).length == Measure(Emit(st).lines)
    ensures TokenCount(Emit(st).lines) == TokenCount(st.lines) + 1
  {
    var t := Token(st.prev, st.count);
    MeasurePositive(st.lines);
    RenderAppendToken(st.lines, t, false);
    MeasureAppendToken(st.lines, t);
  }

  lemma MaximalSnoc(l: Line, t: Token)
    requires MaximalLine(l) && ValidToken(t)
    requires l != [] ==> l[|l| - 1].symbol != t.symbol
    ensures MaximalLine(l + [t])
  {
    var l' := l + [t];
    forall j | 0 < j < |l'|
      ensures l'[j - 1].symbol != l'[j].symbol
    {
      if j < |l| {
        assert l'[j - 1] == l[j - 1] && l'[j] == l[j];
      }
    }
  }

  lemma WellFormedAppendToken(ls: seq<Line>, t: Token)
    requires |ls| >= 1 && WellFormed(ls) && ValidToken(t)
    requires ls[|ls| - 1] != [] ==> ls[|ls| - 1][|ls[|ls| - 1]| - 1].symbol != t.symbol
    ensures WellFormed(AppendToken(ls, t))
  {
    MaximalSnoc(ls[|ls| - 1], t);
    var r := AppendToken(ls, t);
    forall i | 0 <= i < |r|
      ensures MaximalLine(r[i])
    {
      if i < |ls| - 1 {
        assert r[i] == ls[i];
      }
    }
  }

  lemma WellFormedBump(ls: seq<Line>, c: char, n: nat)
    requires |ls| >= 1 && n >= 1
    requires WellFormed(AppendToken(ls, Token(c, n)))
    ensures WellFormed(AppendToken(ls, Token(c, n + 1)))
  {
    var a := AppendToken(ls, Token(c, n));
    var b := AppendToken(ls, Token(c, n + 1));
    forall i | 0 <= i < |b|
      ensures MaximalLine(b[i])
    {
      assert MaximalLine(a[i]);
      if i == |b| - 1 {
        var l := ls[|ls| - 1];
        assert a[i] == l + [Token(c, n)] && b[i] == l + [Token(c, n + 1)];
        forall j | 0 <= j < |b[i]|
          ensures ValidToken(b[i][j])
        {
          assert ValidToken(a[i][j]);
        }
        forall j | 0 < j < |b[i]|
          ensures b[i][j - 1].symbol != b[i][j].symbol
        {
          assert a[i][j - 1].symbol == b[i][j - 1].symbol;
          assert a[i][j].symbol == b[i][j].symbol;
        }
      } else {
        assert b[i] == a[i];
      }
    }
  }

  lemma WellFormedNewLine(ls: seq<Line>)
    requires WellFormed(ls)
    ensures WellFormed(ls + [[]])
  {
    var r := ls + [[]];
    forall i | 0 <= i < |r|
      ensures MaximalLine(r[i])
    {
      if i < |ls| {
        assert r[i] == ls[i];
      }
    }
  }

  lemma StartEstablishes(c: char)
    requires c != ' ' && c != '\n'
    ensures Inv(Start(c), [c])
  {
    var st := Start(c);
    var t := Token(c, 1);
    var empty: Line := [];
    assert [empty][..0] == [];
    assert empty + [t] == [t];
    assert [empty][..0] + [empty + [t]] == [[t]];
    assert Pending(st) == [[t]];
    assert [t][1..] == [];
    assert Repeat(c, 1) == [c];
    assert ExpandLine([t]) == Expand(t) + ExpandLine([]);
  }

  /** Bytes equal to the pending symbol only raise `count`: nothing is
      written until the run ends. */
  lemma {:induction false} RunSameSymbol(st: State, k: nat)
    requires |st.lines| >= 1 && st.prev != '\n' && st.prev != ' '
    ensures Run(st, Repeat(st.prev, k)) == Run(st.(count := st.count + k), [])
    decreases k
  {
    var rest := Repeat(st.prev, k);
    if k == 0 {
      assert st.(count := st.count + k) == st;
    } else {
      assert rest[0] == st.prev && rest[1..] == Repeat(st.prev, k - 1);
      var next := st.(count := st.count + 1);
      assert Step(st, st.prev) == next;
      RunSameSymbol(next, k - 1);
      assert next.(count := next.count + (k - 1)) == st.(count := st.count + k);
    }
  }

  /** A file that is one run of a symbol is written as one token, and its
      length is that token's allowance. */
  lemma CompressOneRun(c: char, n: nat)
    requires n >= 1 && c != ' ' && c != '\n'
    ensures Compress(Repeat(c, n)) == Success(Encoded(TokenText(Token(c, n)), 2 + Width(n), [[Token(c, n)]]))
  {
    var s := Repeat(c, n);
    assert s[0] == c && s[1..] == Repeat(c, n - 1);
    assert ' ' !in s;
    RunSameSymbol(Start(c), n - 1);
    var ls: seq<Line> := [[]];
    assert AppendToken(ls, Token(c, n)) == [[Token(c, n)]] by {
      assert ls[..0] == [] && ls[0] + [Token(c, n)] == [Token(c, n)];
    }
    assert [] + "" + TokenText(Token(c, n)) == TokenText(Token(c, n));
  }

  /** Two different symbols are written as two tokens, the second after a
      separating space. */
  lemma CompressTwoRuns(a: char, b: char)
    requires a != b && a != ' ' && a != '\n' && b != ' ' && b != '\n'
    ensures var t, u := Token(a, 1), Token(b, 1);
      Compress([a, b]) == Success(Encoded(TokenText(t) + " " + TokenText(u), 6, [[t, u]]))
  {
    var t, u := Token(a, 1), Token(b, 1);
    var s1 := Step(Start(a), b);
    var ls: seq<Line> := [[]];
    assert AppendToken(ls, t) == [[t]] by {
      assert ls[..0] == [] && ls[0] + [t] == [t];
    }
    assert s1 == State(b, 1, TokenText(t), 3, [[t]]) by {
      assert [] + "" + TokenText(t) == TokenText(t);
    }
    var ms: seq<Line> := [[t]];
    assert AppendToken(ms, u) == [[t, u]] by {
      assert ms[..0] == [] && ms[0] + [u] == [t, u];
    }
    assert [a, b][1..] == [b] && [b][1..] == [];
    assert Run(s1, []) == Success(Encoded(TokenText(t) + " " + TokenText(u), 6, [[t, u]]));
  }

  /** A repeated symbol lengthens the pending run. */
  lemma StepRepeat(st: State, p: string, c: char)
    requires Inv(st, p) && c != ' '
    requires c == st.prev && c != '\n'
    ensures Inv(Step(st, c), p + [c])
  {
    var lines := st.lines;
    ExpandAllAppendToken(lines, Token(c, st.count));
    ExpandAllAppendToken(lines, Token(c, st.count + 1));
    assert Repeat(c, st.count + 1) == Repeat(c, st.count) + [c];
    WellFormedBump(lines, c, st.count);
  }

  /** A newline after a symbol writes the pending run, then the newline. */
  lemma StepCloseLine(st: State, p: string, c: char)
    requires Inv(st, p)
    requires c == '\n' && st.prev != '\n'
    ensures Inv(Step(st, c), p + [c])
  {
    var full := Pending(st);
    EmitKeeps(st);
    ExpandAllNewLine(full);
    RenderNewLine(full, false);
    MeasureNewLine(full);
    WellFormedNewLine(full);
    assert Step(st, c).lines == full + [[]];
  }

  /** A different symbol after a symbol writes the pending run and starts a
      new one. */
  lemma StepNewRun(st: State, p: string, c: char)
    requires Inv(st, p) && c != ' '
    requires c != '\n' && c != st.prev && st.prev != '\n'
    ensures Inv(Step(st, c), p + [c])
  {
    var lines := st.lines;
    var full := Pending(st);
    EmitKeeps(st);
    ExpandAllAppendToken(full, Token(c, 1));
    assert Repeat(c, 1) == [c];
    var l := full[|full| - 1];
    assert l == lines[|lines| - 1] + [Token(st.prev, st.count)];
    WellFormedAppendToken(full, Token(c, 1));
    assert Step(st, c).lines == full;
  }

  /** Any byte after a newline: another newline, or the first run of a line. */
  lemma StepAfterNewline(st: State, p: string, c: char)
    requires Inv(st, p) && c != ' '
    requires st.prev == '\n'
    ensures Inv(Step(st, c), p + [c])
  {
    if c == '\n' {
      BlankLine(st, p);
    } else {
      FirstRun(st, p, c);
    }
  }

  /** A newline right after a newline: an empty line. */
  lemma BlankLine(st: State, p: string)
    requires Inv(st, p) && st.prev == '\n'
    ensures Inv(Step(st, '\n'), p + ['\n'])
  {
    var lines := st.lines;
    assert Pending(st) == lines;
    ExpandAllNewLine(lines);
    RenderNewLine(lines, false);
    MeasureNewLine(lines);
    WellFormedNewLine(lines);
    assert Step(st, '\n').lines == lines + [[]];
  }

  /** A symbol right after a newline: the first run of a line. */
  lemma FirstRun(st: State, p: string, c: char)
    requires Inv(st, p) && c != ' ' && c != '\n' && st.prev == '\n'
    ensures Inv(Step(st, c), p + [c])
  {
    var lines := st.lines;
    assert Pending(st) == lines;
    ExpandAllAppendToken(lines, Token(c, 1));
    assert Repeat(c, 1) == [c];
    WellFormedAppendToken(lines, Token(c, 1));
    assert Step(st, c).lines == lines;
  }

  /** One loop iteration keeps the invariant. */
  lemma StepKeeps(st: State, p: string, c: char)
    requires Inv(st, p) && c != ' '
    ensures Inv(Step(st, c), p + [c])
  {
    if c == st.prev && c != '\n' {
      StepRepeat(st, p, c);
    } else if st.prev == '\n' {
      StepAfterNewline(st, p, c);
    } else if c == '\n' {
      StepCloseLine(st, p, c);
    } else {
      StepNewRun(st, p, c);
    }
  }

  /** What a successful encoding satisfies. */
  ghost predicate Faithful(e: Encoded, s: string) {
    && |e.lines| >= 1
    && ExpandAll(e.lines) == s
    && WellFormed(e.lines)
    && e.text == Render(e.lines)
    && e.length == Measure(e.lines)
    && TokenCount(e.lines) >= 1
  }

  lemma FinishDelivers(st: State, p: string)
    requires Inv(st, p)
    ensures Faithful(Finish(st), p)
  {
    if st.prev != '\n' {
      EmitKeeps(st);
    } else {
      assert |st.lines| >= 2;
    }
  }

  lemma {:induction false} RunDelivers(st: State, p: string, rest: string)
    requires Inv(st, p) && ' ' !in rest
    ensures Run(st, rest).Success? && Faithful(Run(st, rest).value, p + rest)
    decreases |rest|
  {
    if rest == [] {
      assert p + rest == p;
      FinishDelivers(st, p);
    } else {
      StepKeeps(st, p, rest[0]);
      assert p + rest == (p + [rest[0]]) + rest[1..];
      RunDelivers(Step(st, rest[0]), p + [rest[0]], rest[1..]);
    }
  }

  /** The encoder's round trip against its own run list: when it succeeds,
      expanding the runs it wrote gives back the input exactly; the runs are
      maximal (no empty run, neighbours on a line differ); the text is their
      rendering, a space before every token but the very first; and the
      length is the token allowances plus one per newline. */
  lemma CompressFaithful(s: string)
    requires Compress(s).Success?
    ensures Faithful(Compress(s).value, s)
  {
    StartEstablishes(s[0]);
    assert s == [s[0]] + s[1..];
    RunDelivers(Start(s[0]), [s[0]], s[1..]);
  }
}

=== FILE: findings.dfy ===
/** Inputs on which `decompress_file` (rle_tool.c) does not give back what
    `compress_file` wrote, set against the repaired decoder. */
module Findings {
  import opened CText
  import opened Results
  import opened Runs
  import Validator
  import Decoder
  import Corrected
  import Encoder
  import RoundTrip

  /** The cursor defect in general, first half: on a rendered line whose
      first symbol is not a digit, the C token loop never ends. The second
      half, on lines of digit symbols, is `DigitLineSkipped`. */
  lemma RenderedLineStuck(l: Line, started: bool, tail: string)
    requires RoundTrip.Renderable(l) && l != [] && !IsDigit(l[0].symbol)
    requires tail == [] || tail == "\n"
    ensures Decoder.DecodeLine(RenderLine(l, started) + tail).Stuck?
  {
    var line := RenderLine(l, started) + tail;
    RoundTrip.RenderedLineValid(l, started, tail);
    if started {
      RoundTrip.SkipSeparator(l, tail);
    } else {
      SkipNone(line, Blank);
    }
    var t := Skip(line, Blank);
    assert t == RenderLine(l, false) + tail;
    assert t[0] == l[0].symbol;
    Decoder.StuckOnNonDigitSymbol(line);
  }

  /** The encoder on `aaa` and a newline: one run, then the newline. */
  lemma CompressThreeA()
    ensures Encoder.Compress("aaa\n") == Success(Encoder.Encoded("a 3\n", 4, [[Token('a', 3)], []]))
  {
    var s0 := Encoder.Start('a');
    var s1 := Encoder.Step(s0, 'a');
    var s2 := Encoder.Step(s1, 'a');
    var s3 := Encoder.Step(s2, '\n');
    assert s2 == Encoder.State('a', 3, [], 0, [[]]);
    assert Decimal.Format(3) == "3";
    assert TokenText(Token('a', 3)) == "a 3";
    assert AppendToken([[]], Token('a', 3)) == [[Token('a', 3)]] by {
      var ls: seq<Line> := [[]];
      assert ls[..0] == [] && ls[0] + [Token('a', 3)] == [Token('a', 3)];
    }
    assert s3 == Encoder.State('\n', 1, "a 3\n", 4, [[Token('a', 3)], []]);
    assert "aaa\n"[1..] == "aa\n" && "aa\n"[1..] == "a\n" && "a\n"[1..] == "\n" && "\n"[1..] == [];
    assert Encoder.Run(s3, []) == Success(Encoder.Encoded("a 3\n", 4, [[Token('a', 3)], []]));
  }

  /** A first line that passes validation but sticks the cursor makes the
      whole decoding diverge. */
  lemma FirstLineStuck(text: string, line: string, more: seq<string>)
    requires text != [] && Decoder.SplitLines(text, Decoder.BufferSize - 1) == [line] + more
    requires Validator.Validate(line) == Validator.Valid && Decoder.DecodeLine(line).Stuck?
    ensures Decoder.Decompress(text) == Failure(Decoder.Diverges(0))
  {
    assert ([line] + more)[0] == line;
  }

  lemma DecoderStuckOnThreeA()
    ensures Decoder.Decompress("a 3\n") == Failure(Decoder.Diverges(0))
  {
    var l := [Token('a', 3)];
    var line := RenderLine(l, false) + "\n";
    assert line == "a 3\n";
    RoundTrip.SplitNext(RenderLine(l, false), [], Decoder.BufferSize - 1);
    assert line + [] == line;
    RoundTrip.RenderedLineValid(l, false, "\n");
    RenderedLineStuck(l, false, "\n");
    FirstLineStuck(line, line, Decoder.SplitLines([], Decoder.BufferSize - 1));
  }

  /** `aaa` and a newline: the encoder writes `a 3` and a newline, on which
      the C decoder loops for ever. */
  lemma ExampleCursorStuck()
    ensures Encoder.Compress("aaa\n").Success? && Encoder.Compress("aaa\n").value.text == "a 3\n"
    ensures Decoder.Decompress("a 3\n") == Failure(Decoder.Diverges(0))
  {
    CompressThreeA();
    DecoderStuckOnThreeA();
  }

  /** The repaired decoder on what the encoder wrote for a given file. */
  lemma RepairedOn(s: string, text: string, k: nat)
    requires Encoder.Compress(s).Success? && Encoder.Compress(s).value.text == text
    requires forall i :: 0 <= i < |s| ==> s[i] == '\n' || IsPrint(s[i])
    requires k + Newlines(s) == |s|
    ensures Corrected.Decompress(text) == Success(Decoder.Decoded(s, k))
  {
    RoundTrip.RoundTrip(s);
    var r := Corrected.Decompress(Encoder.Compress(s).value.text);
    assert r.value == Decoder.Decoded(s, k);
  }

  /** The repaired decoder gives `aaa` and the newline back. */
  lemma ExampleCursorRepaired()
    ensures Corrected.Decompress("a 3\n") == Success(Decoder.Decoded("aaa\n", 3))
  {
    ThreeAText();
    CompressThreeA();
    RepairedOn("aaa\n", "a 3\n", 3);
  }

  /** `aaa` and a newline: printable bytes and one newline. */
  lemma ThreeAText()
    ensures forall i :: 0 <= i < |"aaa\n"| ==> "aaa\n"[i] == '\n' || IsPrint("aaa\n"[i])
    ensures 3 + Newlines("aaa\n") == |"aaa\n"|
  {
    var s := "aaa\n";
    assert Newlines(s) == 1 by {
      assert multiset(s) == multiset{'a', 'a', 'a', '\n'};
    }
  }

  // ------------------------------------------------ lines of digit tokens

  /** Only a newline, or nothing, left: `sscanf` finds nothing, the loop
      stops. */
  lemma EndHalts(tail: string)
    requires tail == [] || tail == "\n"
    ensures Decoder.DecodeLine(tail) == Decoder.Done([], 0)
  {
    if tail != [] {
      assert tail[1..] == [];
      assert Decoder.ScanToken(tail) == Decoder.Unmatched;
    }
  }

  /** A line holding one token whose symbol is a digit: the C cursor can
      pass over the whole token, so the loop ends normally. */
  lemma DigitTokenLine(g: nat, c: char, n: nat, tail: string)
    requires IsDigit(c) && (tail == [] || tail == "\n")
    ensures Decoder.DecodeLine(Spaces(g) + [c, ' '] + Decimal.Format(n) + tail) == Decoder.Done(Repeat(c, n), 1)
  {
    var p := Spaces(g) + [c, ' '] + Decimal.Format(n) + tail;
    DigitTokenStep(g, c, n, tail);
    EndHalts(tail);
    Decoder.DecodeLineStep(p);
    assert Repeat(c, n) + [] == Repeat(c, n);
  }

  /** On a token whose symbol is a digit, the C cursor skips the whole token
      and lands on the line's end. */
  lemma DigitTokenStep(g: nat, c: char, n: nat, tail: string)
    requires IsDigit(c) && (tail == [] || tail == "\n")
    ensures Decoder.Step(Spaces(g) + [c, ' '] + Decimal.Format(n) + tail) == Decoder.Advance(c, n, tail)
  {
    var head := Spaces(g) + [c, ' '] + Decimal.Format(n);
    var p := head + tail;
    RoundTrip.ScanRenderedToken(g, c, n, tail);
    DigitTokenBlank(g, c, n);
    SkipOver(head, tail, DigitOrBlank);
    SkipNone(tail, DigitOrBlank);
    assert Head(p) != NUL by {
      assert p[0] == ' ' || p[0] == c;
    }
  }

  lemma DigitTokenBlank(g: nat, c: char, n: nat)
    requires IsDigit(c)
    ensures AllIn(Spaces(g) + [c, ' '] + Decimal.Format(n), DigitOrBlank)
  {
    var f := Decimal.Format(n);
    var head := Spaces(g) + [c, ' '] + f;
    forall i | 0 <= i < |head| ensures In(head[i], DigitOrBlank) {
      if i >= g + 2 {
        assert head[i] == f[i - g - 2];
      }
    }
  }

  /** A rendered line whose symbols are all digits holds only digits and
      spaces. */
  lemma {:induction false} DigitLineBlank(l: Line, started: bool)
    requires forall i :: 0 <= i < |l| ==> IsDigit(l[i].symbol)
    ensures AllIn(RenderLine(l, started), DigitOrBlank)
    decreases |l|
  {
    if l != [] {
      var sep := if started then " " else "";
      var head := TokenText(l[0]);
      var rest := RenderLine(l[1..], true);
      DigitLineBlank(l[1..], true);
      DigitTokenBlank(0, l[0].symbol, l[0].count);
      assert Spaces(0) + [l[0].symbol, ' '] + Decimal.Format(l[0].count) == head;
      var r := RenderLine(l, started);
      assert r == sep + head + rest;
      forall i | 0 <= i < |r| ensures In(r[i], DigitOrBlank) {
        if i < |sep| {
          assert r[i] == ' ';
        } else if i < |sep| + |head| {
          assert r[i] == head[i - |sep|];
        } else {
          assert r[i] == rest[i - |sep| - |head|];
        }
      }
    }
  }

  /** The cursor defect on digit symbols: on a rendered line whose symbols
      are all digits, with or without its leading separator, the first pass
      expands the first token and then skips the rest of the line. */
  lemma DigitLineStep(l: Line, started: bool, tail: string)
    requires l != [] && RoundTrip.Renderable(l) && forall i :: 0 <= i < |l| ==> IsDigit(l[i].symbol)
    requires tail == [] || tail == "\n"
    ensures Decoder.Step(RenderLine(l, started) + tail) == Decoder.Advance(l[0].symbol, l[0].count, tail)
  {
    var p := RenderLine(l, started) + tail;
    var r := RenderLine(l[1..], true) + tail;
    var g := if started then 1 else 0;
    RoundTrip.TokenAsLexeme(l, started, tail);
    assert p[0] != NUL by {
      assert p[0] == (if started then ' ' else l[0].symbol);
    }
    RoundTrip.AfterToken(l[1..], tail);
    RoundTrip.ScanRenderedToken(g, l[0].symbol, l[0].count, r);
    DigitLineSkips(l, started, tail);
    StepThrough(p, l[0].symbol, l[0].count, r, tail);
  }

  lemma DigitLineSkips(l: Line, started: bool, tail: string)
    requires forall i :: 0 <= i < |l| ==> IsDigit(l[i].symbol)
    requires tail == [] || tail == "\n"
    ensures Skip(RenderLine(l, started) + tail, DigitOrBlank) == tail
  {
    DigitLineBlank(l, started);
    SkipOver(RenderLine(l, started), tail, DigitOrBlank);
    SkipNone(tail, DigitOrBlank);
  }

  /** A pass that scans `(c, n)` at a cursor that does not read NUL, and
      skips to `tail`. */
  lemma StepThrough(p: string, c: char, n: int, r: string, tail: string)
    requires Decoder.ScanToken(p) == Decoder.Scanned(c, n, r)
    requires p != [] && p[0] != NUL && Skip(p, DigitOrBlank) == tail
    ensures Decoder.Step(p) == Decoder.Advance(c, n, tail)
  {
  }

  /** So the C decoder writes the first run of such a line and loses every
      later run, with no error, whether the line is the output's first or
      a later one. */
  lemma DigitLineSkipped(l: Line, started: bool, tail: string)
    requires l != [] && RoundTrip.Renderable(l) && forall i :: 0 <= i < |l| ==> IsDigit(l[i].symbol)
    requires tail == [] || tail == "\n"
    ensures Decoder.DecodeLine(RenderLine(l, started) + tail) == Decoder.Done(Repeat(l[0].symbol, l[0].count), 1)
  {
    var p := RenderLine(l, started) + tail;
    DigitLineStep(l, started, tail);
    assert |tail| < |p| by {
      assert |RenderLine(l, started)| >= 1;
    }
    EndHalts(tail);
    Decoder.DecodeLineStep(p);
    assert Repeat(l[0].symbol, l[0].count) + [] == Repeat(l[0].symbol, l[0].count);
  }

  // ----------------------------------------------------- the newline rule

  /** One pass of the `fgets` loop of the C decoder over a line that
      decodes. */
  lemma LineThen(line: string, more: seq<string>, index: nat, last: bool, out: string, k: nat, d: Decoder.Decoded)
    requires Validator.Validate(line) == Validator.Valid && Decoder.DecodeLine(line) == Decoder.Done(out, k)
    requires Decoder.DecodeLines(more, index + 1, last || k > 0 || !last) == Success(d)
    ensures Decoder.DecodeLines([line] + more, index, last)
         == Success(Decoder.Decoded(out + (if k > 0 || !last then "\n" else "") + d.text, |out| + d.length))
  {
    assert ([line] + more)[0] == line && ([line] + more)[1..] == more;
  }

  /** A short line with its newline at the end of the text is the last
      `fgets` line. */
  lemma SplitOne(c: string, cap: nat)
    requires '\n' !in c && |c| < cap
    ensures Decoder.SplitLines(c + "\n", cap) == [c + "\n"]
  {
    var empty: string := [];
    RoundTrip.SplitNext(c, empty, cap);
    assert c + "\n" + empty == c + "\n";
    assert [c + "\n"] + Decoder.SplitLines(empty, cap) == [c + "\n"];
  }

  /** Two short lines, each with its newline, are two `fgets` lines. */
  lemma SplitTwo(a: string, b: string, cap: nat)
    requires '\n' !in a && '\n' !in b && |a| < cap && |b| < cap
    ensures Decoder.SplitLines(a + "\n" + (b + "\n"), cap) == [a + "\n", b + "\n"]
  {
    SplitOne(b, cap);
    RoundTrip.SplitNext(a, b + "\n", cap);
  }

  /** The C decoder on a token line and a blank line, both ending in
      newlines: the blank line leaves nothing behind. */
  lemma TwoLines(a: string, b: string, x: string)
    requires Validator.Validate(a) == Validator.Valid && Decoder.DecodeLine(a) == Decoder.Done(x, 1)
    requires Validator.Validate(b) == Validator.Valid && Decoder.DecodeLine(b) == Decoder.Done([], 0)
    ensures Decoder.DecodeLines([a, b], 0, true) == Success(Decoder.Decoded(x + "\n", |x|))
  {
    var none: seq<string> := [];
    var d0 := Decoder.Decoded([], 0);
    assert Decoder.DecodeLines(none, 2, true) == Success(d0);
    LineThen(b, none, 1, true, [], 0, d0);
    assert [b] + none == [b];
    assert [] + "" + [] == "";
    LineThen(a, [b], 0, true, x, 1, d0);
    assert [a] + [b] == [a, b];
    assert x + "\n" + [] == x + "\n";
  }

  lemma BlankLineText()
    ensures Decoder.SplitLines("1 1\n\n", Decoder.BufferSize - 1) == ["1 1\n", "\n"]
  {
    var empty: string := [];
    SplitTwo("1 1", empty, Decoder.BufferSize - 1);
    assert "1 1" + "\n" + (empty + "\n") == "1 1\n\n";
    assert empty + "\n" == "\n";
    assert "1 1" + "\n" == "1 1\n";
  }

  lemma OneLineDecodes(tail: string)
    requires tail == [] || tail == "\n"
    ensures Validator.Validate("1 1" + tail) == Validator.Valid
    ensures Decoder.DecodeLine("1 1" + tail) == Decoder.Done("1", 1)
  {
    OneLineRuns(tail);
    OneLineValid(tail);
  }

  lemma OneLineRuns(tail: string)
    requires tail == [] || tail == "\n"
    ensures Decoder.DecodeLine("1 1" + tail) == Decoder.Done("1", 1)
  {
    DigitTokenLine(0, '1', 1, tail);
    assert Spaces(0) + ['1', ' '] + Decimal.Format(1) + tail == "1 1" + tail;
    assert Repeat('1', 1) == "1";
  }

  lemma OneLineValid(tail: string)
    requires tail == [] || tail == "\n"
    ensures Validator.Validate("1 1" + tail) == Validator.Valid
  {
    var l := [Token('1', 1)];
    RoundTrip.RenderedLineValid(l, false, tail);
    assert RenderLine(l, false) + tail == "1 1" + tail;
  }

  lemma BlankLineDecodes()
    ensures Validator.Validate("\n") == Validator.Valid
    ensures Decoder.DecodeLine("\n") == Decoder.Done([], 0)
  {
    EndHalts("\n");
    RoundTrip.RenderedLineValid([], true, "\n");
    assert RenderLine([], true) + "\n" == "\n";
  }

  /** The encoder on `1` and two newlines. */
  lemma CompressBlankLine()
    ensures Encoder.Compress("1\n\n") == Success(Encoder.Encoded("1 1\n\n", 5, [[Token('1', 1)], [], []]))
  {
    var s1 := Encoder.State('\n', 1, "1 1\n", 4, [[Token('1', 1)], []]);
    var s2 := Encoder.State('\n', 1, "1 1\n\n", 5, [[Token('1', 1)], [], []]);
    OneThenNewline();
    assert Encoder.Step(s1, '\n') == s2;
    var nl := "\n";
    assert "1\n\n" == ['1'] + (nl + nl);
    RunNewline(Encoder.Start('1'), nl);
    RunNewline(s1, []);
    assert Encoder.Run(s2, []) == Success(Encoder.Encoded("1 1\n\n", 5, [[Token('1', 1)], [], []]));
  }

  /** A newline after a pending `1` closes its run and the line. */
  lemma OneThenNewline()
    ensures Encoder.Step(Encoder.Start('1'), '\n') == Encoder.State('\n', 1, "1 1\n", 4, [[Token('1', 1)], []])
  {
    assert Decimal.Format(1) == "1";
    assert TokenText(Token('1', 1)) == "1 1";
    assert AppendToken([[]], Token('1', 1)) == [[Token('1', 1)]] by {
      var ls: seq<Line> := [[]];
      assert ls[..0] == [] && ls[0] + [Token('1', 1)] == [Token('1', 1)];
    }
  }

  lemma RunNewline(st: Encoder.State, rest: string)
    requires |st.lines| >= 1
    ensures Encoder.Run(st, "\n" + rest) == Encoder.Run(Encoder.Step(st, '\n'), rest)
  {
    assert ("\n" + rest)[0] == '\n' && ("\n" + rest)[1..] == rest;
  }

  /** The encoder on a lone `1`. */
  lemma CompressLoneOne()
    ensures Encoder.Compress("1") == Success(Encoder.Encoded("1 1", 3, [[Token('1', 1)]]))
  {
    var s0 := Encoder.Start('1');
    assert Decimal.Format(1) == "1";
    assert TokenText(Token('1', 1)) == "1 1";
    assert AppendToken([[]], Token('1', 1)) == [[Token('1', 1)]] by {
      var ls: seq<Line> := [[]];
      assert ls[..0] == [] && ls[0] + [Token('1', 1)] == [Token('1', 1)];
    }
    assert "1"[1..] == [];
    assert Encoder.Emit(s0) == Encoder.State('1', 1, "1 1", 3, [[Token('1', 1)]]);
    assert Encoder.Run(s0, []) == Success(Encoder.Encoded("1 1", 3, [[Token('1', 1)]]));
  }

  /** The C decoder on a text that `fgets` reads as `lines`. */
  lemma DecompressAsLines(text: string, lines: seq<string>)
    requires text != [] && Decoder.SplitLines(text, Decoder.BufferSize - 1) == lines
    ensures Decoder.Decompress(text) == Decoder.DecodeLines(lines, 0, true)
  {
  }

  lemma DecoderDropsBlankLine()
    ensures Decoder.Decompress("1 1\n\n") == Success(Decoder.Decoded("1\n", 1))
  {
    var nl := "\n";
    var a := "1 1" + nl;
    var x := "1";
    OneLineDecodes(nl);
    BlankLineDecodes();
    TwoLines(a, nl, x);
    assert x + nl == "1\n";
    assert a == "1 1\n";
    BlankLineText();
    DecompressAsLines("1 1\n\n", [a, nl]);
  }

  lemma DecoderAddsNewline()
    ensures Decoder.Decompress("1 1") == Success(Decoder.Decoded("1\n", 1))
  {
    OneLineAlone();
    LoneLineDecodes("1 1", "1");
  }

  lemma OneLineAlone()
    ensures '\n' !in "1 1" && |"1 1"| == 3 && "1" + "\n" == "1\n"
    ensures Validator.Validate("1 1") == Validator.Valid
    ensures Decoder.DecodeLine("1 1") == Decoder.Done("1", 1)
  {
    OneLineDecodes([]);
    assert "1 1" + [] == "1 1";
  }

  /** `12`: the encoder writes `1 1 2 1`. The C decoder expands the first
      run and skips the second one without an error, writing `1` and a
      newline; the repaired decoder gives `12` back. */
  lemma ExampleDigitTokensSkipped()
    ensures Encoder.Compress("12").Success? && Encoder.Compress("12").value.text == "1 1 2 1"
    ensures Decoder.Decompress("1 1 2 1") == Success(Decoder.Decoded("1\n", 1))
    ensures Corrected.Decompress("1 1 2 1") == Success(Decoder.Decoded("12", 2))
  {
    CompressOneTwo();
    OneTwoText();
    RepairedOn("12", "1 1 2 1", 2);
    OneTwoDecodes();
    LoneLineDecodes("1 1 2 1", "1");
  }

  lemma CompressOneTwo()
    ensures Encoder.Compress("12") == Success(Encoder.Encoded("1 1 2 1", 6, [[Token('1', 1), Token('2', 1)]]))
  {
    Encoder.CompressTwoRuns('1', '2');
    OneTwoTokens();
  }

  lemma OneTwoTokens()
    ensures "12" == ['1', '2']
    ensures TokenText(Token('1', 1)) + " " + TokenText(Token('2', 1)) == "1 1 2 1"
  {
    assert Decimal.Format(1) == "1";
  }

  /** `12`: printable bytes and no newline. */
  lemma OneTwoText()
    ensures forall i :: 0 <= i < |"12"| ==> "12"[i] == '\n' || IsPrint("12"[i])
    ensures 2 + Newlines("12") == |"12"|
    ensures '\n' !in "1 1 2 1" && |"1 1 2 1"| == 7 && "1" + "\n" == "1\n"
  {
    assert Newlines("12") == 0 by {
      assert multiset("12") == multiset{'1', '2'};
    }
  }

  /** `1 1 2 1` passes validation, and the C token loop writes only `1`. */
  lemma OneTwoDecodes()
    ensures Validator.Validate("1 1 2 1") == Validator.Valid
    ensures Decoder.DecodeLine("1 1 2 1") == Decoder.Done("1", 1)
  {
    var l := [Token('1', 1), Token('2', 1)];
    var empty: string := [];
    assert RenderLine(l, false) + empty == "1 1 2 1" by {
      assert Decimal.Format(1) == "1";
      assert l[1..][1..] == [];
    }
    RoundTrip.RenderedLineValid(l, false, empty);
    DigitLineSkipped(l, false, empty);
    assert Repeat('1', 1) == "1";
  }

  /** A text of one line with no newline and one token: the C decoder adds
      a newline after it. */
  lemma LoneLineDecodes(line: string, x: string)
    requires '\n' !in line && 1 <= |line| <= Decoder.BufferSize - 1
    requires Validator.Validate(line) == Validator.Valid && Decoder.DecodeLine(line) == Decoder.Done(x, 1)
    ensures Decoder.Decompress(line) == Success(Decoder.Decoded(x + "\n", |x|))
  {
    RoundTrip.SplitLast(line, Decoder.BufferSize - 1);
    var none: seq<string> := [];
    LineThen(line, none, 0, true, x, 1, Decoder.Decoded([], 0));
    assert [line] + none == [line];
    assert x + "\n" + [] == x + "\n";
  }

  /** `1` and two newlines: the encoder writes the blank line, the C decoder
      drops it. A lone `1`: the C decoder adds a newline the input did not
      have. */
  lemma ExampleNewlineRule()
    ensures Encoder.Compress("1\n\n").Success? && Encoder.Compress("1\n\n").value.text == "1 1\n\n"
    ensures Decoder.Decompress("1 1\n\n") == Success(Decoder.Decoded("1\n", 1))
    ensures Encoder.Compress("1").Success? && Encoder.Compress("1").value.text == "1 1"
    ensures Decoder.Decompress("1 1") == Success(Decoder.Decoded("1\n", 1))
  {
    CompressBlankLine();
    DecoderDropsBlankLine();
    CompressLoneOne();
    DecoderAddsNewline();
  }

  /** The repaired decoder keeps the blank line and adds nothing. */
  lemma ExampleNewlineRepaired()
    ensures Corrected.Decompress("1 1\n\n") == Success(Decoder.Decoded("1\n\n", 1))
    ensures Corrected.Decompress("1 1") == Success(Decoder.Decoded("1", 1))
  {
    BlankLineRepaired();
    LoneLineRepaired();
  }

  /** A text of one blank line decodes, with success, to nothing: the
      length `decompress_file` returns is 0, the value its callers take for
      a failure. */
  lemma ExampleZeroLength()
    ensures Decoder.Decompress("\n") == Success(Decoder.Decoded([], 0))
  {
    var empty: string := [];
    SplitOne(empty, Decoder.BufferSize - 1);
    assert empty + "\n" == "\n" && Spaces(0) + "\n" == "\n";
    Validator.BlankAccepted("\n", 0, "\n");
    EndHalts("\n");
    var none: seq<string> := [];
    LineThen("\n", none, 0, true, [], 0, Decoder.Decoded([], 0));
    assert ["\n"] + none == ["\n"];
    assert Decoder.SplitLines("\n", Decoder.BufferSize - 1) == ["\n"];
    assert Decoder.DecodeLines(["\n"], 0, true) == Success(Decoder.Decoded(empty + "" + empty, 0));
    assert empty + "" + empty == [];
  }

  lemma BlankLineRepaired()
    ensures Corrected.Decompress("1 1\n\n") == Success(Decoder.Decoded("1\n\n", 1))
  {
    var s := "1\n\n";
    assert Newlines(s) == 2 by {
      assert multiset(s) == multiset{'1', '\n', '\n'};
    }
    CompressBlankLine();
    RepairedOn(s, "1 1\n\n", 1);
  }

  lemma LoneLineRepaired()
    ensures Corrected.Decompress("1 1") == Success(Decoder.Decoded("1", 1))
  {
    var t := "1";
    assert Newlines(t) == 0 by {
      assert multiset(t) == multiset{'1'};
    }
    CompressLoneOne();
    RepairedOn(t, "1 1", 1);
  }

  // ------------------------------------------------ the length allowance

  /** `compressed_length` with the digits of each count counted exactly. */
  function ExactCost(l: Line): nat {
    if l == [] then 0 else 2 + |Decimal.Format(l[0].count)| + ExactCost(l[1..])
  }

  function ExactMeasure(ls: seq<Line>): nat {
    if |ls| == 0 then 0
    else if |ls| == 1 then ExactCost(ls[0])
    else ExactCost(ls[0]) + 1 + ExactMeasure(ls[1..])
  }

  /** The exact cost of a line is what rendering it writes, less the
      separator spaces, of which there is one per token except a first
      token of the whole output. */
  lemma {:induction false} ExactCostCounts(l: Line, started: bool)
    ensures |RenderLine(l, started)| + (if !started && l != [] then 1 else 0) == ExactCost(l) + |l|
    decreases |l|
  {
    if l != [] {
      ExactCostCounts(l[1..], true);
    }
  }

  /** The same over a whole rendering: the exact measure counts every
      character written except the separator spaces between tokens. */
  lemma {:induction false} ExactMeasureCounts(ls: seq<Line>, started: bool)
    ensures |RenderFrom(ls, started)| + (if !started && TokenCount(ls) > 0 then 1 else 0)
         == ExactMeasure(ls) + TokenCount(ls)
    decreases |ls|
  {
    if |ls| == 1 {
      ExactCostCounts(ls[0], started);
      assert TokenCount(ls) == |ls[0]| + TokenCount(ls[1..]);
    } else if |ls| > 1 {
      ExactCostCounts(ls[0], started);
      ExactMeasureCounts(ls[1..], started || ls[0] != []);
    }
  }

  /** With the exact count, the reported length of a successful encoding is
      the length of the text written less its separator spaces, one fewer
      than the tokens. */
  lemma CompressLengthExact(s: string)
    requires Encoder.Compress(s).Success?
    ensures var e := Encoder.Compress(s).value;
      ExactMeasure(e.lines) == |e.text| - (TokenCount(e.lines) - 1)
  {
    Encoder.CompressFaithful(s);
    ExactMeasureCounts(Encoder.Compress(s).value.lines, false);
  }

  lemma {:induction false} FormatWidth(n: nat)
    ensures n < 1000 ==> |Decimal.Format(n)| == Width(n)
    ensures n >= 1000 ==> |Decimal.Format(n)| > Width(n)
  {
    Decimal.FormatLength(n);
  }

  /** The code's allowance agrees with the exact count on every run list
      whose counts stay below 1000. */
  lemma {:induction false} CostAgrees(l: Line)
    requires forall j :: 0 <= j < |l| ==> l[j].count < 1000
    ensures Cost(l) == ExactCost(l)
    decreases |l|
  {
    if l != [] {
      FormatWidth(l[0].count);
      CostAgrees(l[1..]);
    }
  }

  lemma {:induction false} MeasureAgrees(ls: seq<Line>)
    requires forall i, j :: 0 <= i < |ls| && 0 <= j < |ls[i]| ==> ls[i][j].count < 1000
    ensures Measure(ls) == ExactMeasure(ls)
    decreases |ls|
  {
    if ls != [] {
      CostAgrees(ls[0]);
      if |ls| > 1 {
        MeasureAgrees(ls[1..]);
      }
    }
  }

  /** The allowance never overstates the exact count, and it understates it
      exactly when some count has four digits or more. */
  lemma {:induction false} CostUndercounts(l: Line)
    ensures Cost(l) <= ExactCost(l)
    ensures Cost(l) < ExactCost(l) <==> exists j :: 0 <= j < |l| && l[j].count >= 1000
    decreases |l|
  {
    if l != [] {
      FormatWidth(l[0].count);
      CostUndercounts(l[1..]);
      if Cost(l[1..]) < ExactCost(l[1..]) {
        var j :| 0 <= j < |l[1..]| && l[1..][j].count >= 1000;
        assert l[j + 1].count >= 1000;
      }
      if exists j :: 0 <= j < |l| && l[j].count >= 1000 {
        var j :| 0 <= j < |l| && l[j].count >= 1000;
        if j > 0 {
          assert l[1..][j - 1].count >= 1000;
        }
      }
    }
  }

  lemma {:induction false} MeasureUndercounts(ls: seq<Line>)
    ensures Measure(ls) <= ExactMeasure(ls)
    ensures Measure(ls) < ExactMeasure(ls)
        <==> exists i, j :: 0 <= i < |ls| && 0 <= j < |ls[i]| && ls[i][j].count >= 1000
    decreases |ls|
  {
    if ls != [] {
      CostUndercounts(ls[0]);
      if |ls| > 1 {
        MeasureUndercounts(ls[1..]);
        if Measure(ls[1..]) < ExactMeasure(ls[1..]) {
          var i, j :| 0 <= i < |ls[1..]| && 0 <= j < |ls[1..][i]| && ls[1..][i][j].count >= 1000;
          assert ls[i + 1][j].count >= 1000;
        }
      }
      if exists i, j :: 0 <= i < |ls| && 0 <= j < |ls[i]| && ls[i][j].count >= 1000 {
        var i, j :| 0 <= i < |ls| && 0 <= j < |ls[i]| && ls[i][j].count >= 1000;
        if i > 0 {
          assert ls[1..][i - 1][j].count >= 1000;
        } else {
          assert ls[0][j].count >= 1000;
        }
      }
    }
  }

  /** A thousand `a`s: the encoder writes `a 1000`, six characters with no
      separator, but its allowance counts three digits and reports 5. */
  lemma ExampleThousand()
    ensures Encoder.Compress(Repeat('a', 1000)) == Success(Encoder.Encoded("a 1000", 5, [[Token('a', 1000)]]))
    ensures |"a 1000"| == ExactMeasure([[Token('a', 1000)]]) == 6
  {
    Encoder.CompressOneRun('a', 1000);
    ThousandText();
  }

  lemma ThousandText()
    ensures TokenText(Token('a', 1000)) == "a 1000" && Width(1000) == 3
    ensures |"a 1000"| == ExactMeasure([[Token('a', 1000)]]) == 6
  {
    assert Decimal.Format(1000) == "1000" by {
      assert Decimal.Format(1) == "1";
      assert Decimal.Format(10) == "10";
      assert Decimal.Format(100) == "100";
    }
  }
}

=== FILE: results.dfy ===
/** The outcome of an encode or decode call: a value, or the reason the
    C function returned 0. */
module Results {

  datatype Result<+T, +E> = Success(value: T) | Failure(error: E)
}

=== FILE: roundtrip.dfy ===
/** Decoding what the encoder writes. The repaired decoder gives back the
    encoder's input exactly, together with the symbol count the C code
    reports, for every input the encoder accepts whose characters are
    printable or newlines. */
module RoundTrip {
  import opened CText
  import opened Results
  import opened Runs
  import Decimal
  import Validator
  import Decoder
  import Corrected
  import Encoder

  predicate PrintableLine(l: Line) {
    forall j :: 0 <= j < |l| ==> IsPrint(l[j].symbol)
  }

  predicate PrintableLines(ls: seq<Line>) {
    forall i :: 0 <= i < |ls| ==> PrintableLine(ls[i])
  }

  /** A run list whose lines the rendering lemmas below apply to. */
  predicate Renderable(l: Line) {
    MaximalLine(l) && PrintableLine(l)
  }

  // ------------------------------------------------------------ fgets lines

  lemma {:induction false} LineLengthPlain(a: string, b: string, cap: nat)
    requires cap >= 1 && '\n' !in a && |a| < cap
    ensures Decoder.LineLength(a + b, cap) == |a| + Decoder.LineLength(b, cap - |a|)
    decreases |a|
  {
    if a == [] {
      assert a + b == b;
    } else {
      assert (a + b)[0] == a[0];
      assert (a + b)[1..] == a[1..] + b;
      LineLengthPlain(a[1..], b, cap - 1);
    }
  }

  lemma {:induction false} LineLengthWhole(a: string, cap: nat)
    requires '\n' !in a && 1 <= |a| <= cap
    ensures Decoder.LineLength(a, cap) == |a|
    decreases |a|
  {
    if cap > 1 && |a| > 1 {
      LineLengthWhole(a[1..], cap - 1);
    }
  }

  /** A line followed by its newline is one `fgets` line when it fits. */
  lemma SplitNext(a: string, b: string, cap: nat)
    requires '\n' !in a && |a| + 1 <= cap
    ensures Decoder.SplitLines(a + "\n" + b, cap) == [a + "\n"] + Decoder.SplitLines(b, cap)
  {
    var s := a + "\n" + b;
    assert s == a + ("\n" + b);
    LineLengthPlain(a, "\n" + b, cap);
    assert Decoder.LineLength(s, cap) == |a| + 1;
    assert s[..|a| + 1] == a + "\n";
    assert s[|a| + 1..] == b;
  }

  /** A last line without a newline is read whole when it fits. */
  lemma SplitLast(a: string, cap: nat)
    requires '\n' !in a && 1 <= |a| <= cap
    ensures Decoder.SplitLines(a, cap) == [a]
  {
    LineLengthWhole(a, cap);
    assert a[..|a|] == a;
    assert a[|a|..] == [];
  }

  // ------------------------------------------------------- rendered lines

  lemma {:induction false} RenderedLineChars(l: Line, started: bool)
    requires MaximalLine(l)
    ensures '\n' !in RenderLine(l, started)
    decreases |l|
  {
    if l != [] {
      var f := Decimal.Format(l[0].count);
      assert forall i :: 0 <= i < |f| ==> f[i] != '\n';
      RenderedLineChars(l[1..], true);
    }
  }

  /** What follows a rendered token: a space before the next token, or the
      line end. */
  lemma AfterToken(m: Line, tail: string)
    requires tail == [] || tail == "\n"
    ensures var r := RenderLine(m, true) + tail;
      Head(r) == ' ' || Head(r) == NUL || Head(r) == '\n'
  {
    if m != [] {
      assert (RenderLine(m, true) + tail)[0] == ' ';
    }
  }

  /** The first token of a rendered line as the validator's lexeme. */
  lemma TokenAsLexeme(l: Line, started: bool, tail: string)
    requires l != [] && Renderable(l)
    ensures var x := Validator.Lexeme(if started then 1 else 0, l[0].symbol, Decimal.Format(l[0].count));
      && Validator.GoodLexeme(x)
      && RenderLine(l, started) + tail == Validator.LexemeText(x) + (RenderLine(l[1..], true) + tail)
  {
    var g: nat := if started then 1 else 0;
    var sep := Spaces(g);
    var t := [l[0].symbol, ' '];
    var f := Decimal.Format(l[0].count);
    var more := RenderLine(l[1..], true);
    assert sep == (if started then " " else "") by {
      if started {
        assert Spaces(1) == [' '] + Spaces(0);
      }
    }
    assert RenderLine(l, started) == sep + (t + f) + more;
    Associate(sep, t, f);
    Associate(sep + t + f, more, tail);
  }

  /** Every rendered line, with or without its newline, passes
      `validate_line`. */
  lemma {:induction false} RenderedLineValid(l: Line, started: bool, tail: string)
    requires Renderable(l) && (tail == [] || tail == "\n")
    ensures Validator.Validate(RenderLine(l, started) + tail) == Validator.Valid
    decreases |l|
  {
    if l == [] {
      Validator.BlankStep(0, tail);
      assert Spaces(0) + tail == RenderLine(l, started) + tail;
    } else {
      var x := Validator.Lexeme(if started then 1 else 0, l[0].symbol, Decimal.Format(l[0].count));
      TokenAsLexeme(l, started, tail);
      AfterToken(l[1..], tail);
      Validator.TokenStep(x, RenderLine(l[1..], true) + tail);
      RenderedLineValid(l[1..], true, tail);
    }
  }

  /** `%d` on what `%d` wrote reads the count and stops after its digits. */
  lemma ScanFormatted(c: char, n: nat, r: string)
    requires !IsDigit(Head(r))
    ensures Decoder.ScanCount(c, Decimal.Format(n) + r) == Decoder.Scanned(c, n, r)
  {
    var f := Decimal.Format(n);
    assert (f + r)[0] == f[0] && IsDigit(f[0]);
    SpanOver(f, r, Digit);
    assert Span(r, Digit) == 0;
    assert (f + r)[..|f|] == f && (f + r)[|f|..] == r;
    Decimal.ParseFormat(n);
  }

  /** `" %c "` takes the symbol and the space after it. */
  lemma ScanPastSymbol(c: char, u: string)
    requires IsPrint(c) && c != ' '
    ensures Decoder.ScanToken([c, ' '] + u) == Decoder.ScanCount(c, u)
  {
    var t := [c, ' '] + u;
    assert t[0] == c && t[1..] == [' '] + u;
    assert ([' '] + u)[1..] == u;
  }

  /** `sscanf` on a rendered token reads its symbol and count and stops
      right after the digits. */
  lemma ScanRenderedToken(g: nat, c: char, n: nat, r: string)
    requires IsPrint(c) && c != ' ' && !IsDigit(Head(r))
    ensures Decoder.ScanToken(Spaces(g) + [c, ' '] + Decimal.Format(n) + r) == Decoder.Scanned(c, n, r)
  {
    var u := Decimal.Format(n) + r;
    Nest(Spaces(g), [c, ' '], Decimal.Format(n), r);
    Decoder.ScanSpaces(g, [c, ' '] + u);
    ScanPastSymbol(c, u);
    ScanFormatted(c, n, r);
  }

  lemma SkipOneSpace(rest: string)
    requires Head(rest) != ' '
    ensures Skip(" " + rest, Blank) == rest
  {
    SkipOver(" ", rest, Blank);
    SkipNone(rest, Blank);
  }

  /** Passing the separator space in front of the next token. */
  lemma SkipSeparator(m: Line, tail: string)
    requires (m != [] ==> m[0].symbol != ' ') && (tail == [] || tail == "\n")
    ensures Skip(RenderLine(m, true) + tail, Blank) == RenderLine(m, false) + tail
  {
    if m == [] {
      SkipNone(tail, Blank);
    } else {
      var rest := TokenText(m[0]) + RenderLine(m[1..], true) + tail;
      assert RenderLine(m, true) + tail == " " + rest;
      assert RenderLine(m, false) + tail == rest;
      SkipOneSpace(rest);
    }
  }

  /** One pass of the repaired token loop over a rendered token. */
  lemma RenderedTokenStep(l: Line, started: bool, tail: string)
    requires l != [] && Renderable(l) && (tail == [] || tail == "\n")
    ensures Corrected.Step(RenderLine(l, started) + tail)
      == Decoder.Advance(l[0].symbol, l[0].count, RenderLine(l[1..], false) + tail)
  {
    var p := RenderLine(l, started) + tail;
    var c := l[0].symbol;
    var n := l[0].count;
    var g: nat := if started then 1 else 0;
    var r := RenderLine(l[1..], true) + tail;
    TokenAsLexeme(l, started, tail);
    assert p == Spaces(g) + [c, ' '] + Decimal.Format(n) + r;
    AfterToken(l[1..], tail);
    ScanRenderedToken(g, c, n, r);
    assert Head(p) != NUL by {
      assert p[0] == ' ' || p[0] == c;
    }
    SkipSeparator(l[1..], tail);
  }

  /** The repaired token loop reads a rendered line back as its runs. */
  lemma {:induction false} RenderedLineDecodes(l: Line, started: bool, tail: string)
    requires Renderable(l) && (tail == [] || tail == "\n")
    ensures Corrected.DecodeLine(RenderLine(l, started) + tail) == Decoder.Done(ExpandLine(l), |l|)
    decreases |l|
  {
    var p := RenderLine(l, started) + tail;
    if l == [] {
      assert p == tail;
      LineEndDecodes(tail);
    } else {
      RenderedLineDecodes(l[1..], false, tail);
      RenderedTokenThen(l, started, tail);
    }
  }

  /** A rendered line whose later runs read back reads back whole. */
  lemma RenderedTokenThen(l: Line, started: bool, tail: string)
    requires l != [] && Renderable(l) && (tail == [] || tail == "\n")
    requires Corrected.DecodeLine(RenderLine(l[1..], false) + tail) == Decoder.Done(ExpandLine(l[1..]), |l| - 1)
    ensures Corrected.DecodeLine(RenderLine(l, started) + tail) == Decoder.Done(ExpandLine(l), |l|)
  {
    var p := RenderLine(l, started) + tail;
    var q := RenderLine(l[1..], false) + tail;
    RenderedTokenStep(l, started, tail);
    TokenThen(p, l[0].symbol, l[0].count, q, ExpandLine(l[1..]), |l| - 1);
    assert ExpandLine(l) == Repeat(l[0].symbol, l[0].count) + ExpandLine(l[1..]);
  }

  /** The line end alone: the repaired loop reads no token. */
  lemma LineEndDecodes(tail: string)
    requires tail == [] || tail == "\n"
    ensures Corrected.DecodeLine(tail) == Decoder.Done([], 0)
  {
    if tail == "\n" {
      assert Decoder.ScanToken(tail) == Decoder.ScanToken([]);
    }
  }

  /** One pass of the repaired token loop, then the rest of the line. */
  lemma TokenThen(p: string, c: char, n: int, q: string, out: string, k: nat)
    requires Corrected.Step(p) == Decoder.Advance(c, n, q)
    requires Corrected.DecodeLine(q) == Decoder.Done(out, k)
    ensures Corrected.DecodeLine(p) == Decoder.Done(Repeat(c, n) + out, k + 1)
  {
  }

  // -------------------------------------------------------- rendered files

  lemma RenderLineEmpty(l: Line, started: bool)
    ensures RenderLine(l, started) == [] <==> l == []
  {
    if l != [] {
      assert |TokenText(l[0])| >= 2;
    }
  }

  /** One pass of the repaired `fgets` loop over an accepted line. */
  lemma LinesCons(line: string, more: seq<string>, index: nat, d: Decoder.Decoded, e: string, tail: string)
    requires Validator.Validate(line) == Validator.Valid
    requires Corrected.DecodeLine(line).output == e
    requires Corrected.EndsWithNewline(line) <==> tail == "\n"
    requires tail == [] || tail == "\n"
    requires Corrected.DecodeLines(more, index + 1) == Success(d)
    ensures Corrected.DecodeLines([line] + more, index) == Success(Decoder.Decoded(e + tail + d.text, |e| + d.length))
  {
    var lines := [line] + more;
    assert lines != [] && lines[0] == line && lines[1..] == more;
    LinesStep(lines, index, d, e, tail);
  }

  /** The repaired loop's pass over its first line, for a list that is not
      empty: the line's output, its newline if it had one, then the rest. */
  lemma LinesStep(lines: seq<string>, index: nat, d: Decoder.Decoded, e: string, nl: string)
    requires lines != [] && Validator.Validate(lines[0]) == Validator.Valid
    requires Corrected.DecodeLine(lines[0]).output == e
    requires nl == if Corrected.EndsWithNewline(lines[0]) then "\n" else ""
    requires Corrected.DecodeLines(lines[1..], index + 1) == Success(d)
    ensures Corrected.DecodeLines(lines, index) == Success(Decoder.Decoded(e + nl + d.text, |e| + d.length))
  {
  }

  /** A rendered line ends in a newline exactly when one was appended. */
  lemma RenderedLineEnds(l: Line, started: bool, tail: string)
    requires Renderable(l) && (tail == [] || tail == "\n")
    ensures Corrected.EndsWithNewline(RenderLine(l, started) + tail) <==> tail == "\n"
  {
    var line := RenderLine(l, started) + tail;
    RenderedLineChars(l, started);
    if tail == [] && line != [] {
      assert line[|line| - 1] in RenderLine(l, started);
    }
  }

  /** What the repaired loop needs to know about one rendered line. */
  lemma RenderedLineRead(l: Line, started: bool, tail: string)
    requires Renderable(l) && (tail == [] || tail == "\n")
    ensures var line := RenderLine(l, started) + tail;
      && (Corrected.EndsWithNewline(line) <==> tail == "\n")
      && Validator.Validate(line) == Validator.Valid
      && Corrected.DecodeLine(line).output == ExpandLine(l)
  {
    RenderedLineEnds(l, started, tail);
    RenderedLineValid(l, started, tail);
    RenderedLineDecodes(l, started, tail);
  }

  /** A line's expansion holds no newline. */
  lemma {:induction false} ExpandLineNoNewline(l: Line)
    requires MaximalLine(l)
    ensures Newlines(ExpandLine(l)) == 0
    decreases |l|
  {
    if l != [] {
      var x := Expand(l[0]);
      assert '\n' !in multiset(x) by {
        assert forall i :: 0 <= i < |x| ==> x[i] != '\n';
      }
      ExpandLineNoNewline(l[1..]);
      assert multiset(ExpandLine(l)) == multiset(x) + multiset(ExpandLine(l[1..]));
    }
  }

  /** `r` gives back `x`, with the count of its non-newline characters as
      the length. */
  predicate GivesBack(r: Result<Decoder.Decoded, Decoder.DecodeError>, x: string) {
    r.Success? && r.value.text == x && r.value.length + Newlines(x) == |x|
  }

  /** The last line of a text, with no newline after it, read whole and
      decoded as `e`. */
  lemma LastLineGivesBack(a: string, e: string, index: nat, cap: nat)
    requires '\n' !in a && cap >= 1 && cap >= |a| && Newlines(e) == 0
    requires a == [] ==> e == []
    requires a != [] ==> Validator.Validate(a) == Validator.Valid && Corrected.DecodeLine(a).output == e
    ensures GivesBack(Corrected.DecodeLines(Decoder.SplitLines(a, cap), index), e)
  {
    if a != [] {
      SplitLast(a, cap);
      assert !Corrected.EndsWithNewline(a) by {
        assert a[|a| - 1] in a;
      }
      var none: seq<string> := [];
      LinesCons(a, none, index, Decoder.Decoded([], 0), e, []);
      assert [a] + none == [a];
      assert e + [] + [] == e;
    }
  }

  /** A line with its newline in front of more text, read whole and decoded
      as `e`. */
  lemma LineGivesBack(a: string, e: string, rest: string, x: string, index: nat, cap: nat)
    requires '\n' !in a && cap >= |a| + 1 && Newlines(e) == 0
    requires Validator.Validate(a + "\n") == Validator.Valid && Corrected.DecodeLine(a + "\n").output == e
    requires GivesBack(Corrected.DecodeLines(Decoder.SplitLines(rest, cap), index + 1), x)
    ensures GivesBack(Corrected.DecodeLines(Decoder.SplitLines(a + "\n" + rest, cap), index), e + "\n" + x)
  {
    var more := Decoder.SplitLines(rest, cap);
    var d := Corrected.DecodeLines(more, index + 1).value;
    SplitNext(a, rest, cap);
    var nl := "\n";
    assert Corrected.EndsWithNewline(a + nl);
    LinesCons(a + nl, more, index, d, e, nl);
    NewlinesJoin(e, x);
  }

  /** The last rendered line, which has no newline after it. */
  lemma RenderedDecodesLast(l: Line, started: bool, index: nat, cap: nat)
    requires Renderable(l) && cap >= 1 && cap >= |RenderLine(l, started)|
    ensures GivesBack(Corrected.DecodeLines(Decoder.SplitLines(RenderLine(l, started), cap), index), ExpandLine(l))
  {
    ExpandLineNoNewline(l);
    RenderLineEmpty(l, started);
    RenderedLineChars(l, started);
    RenderedLineRead(l, started, []);
    assert RenderLine(l, started) + [] == RenderLine(l, started);
    assert l == [] ==> ExpandLine(l) == [];
    LastLineGivesBack(RenderLine(l, started), ExpandLine(l), index, cap);
  }

  /** A rendered line and its newline in front of more text. */
  lemma RenderedDecodesMore(l: Line, started: bool, rest: string, x: string, index: nat, cap: nat)
    requires Renderable(l) && cap >= |RenderLine(l, started)| + 1
    requires GivesBack(Corrected.DecodeLines(Decoder.SplitLines(rest, cap), index + 1), x)
    ensures GivesBack(Corrected.DecodeLines(Decoder.SplitLines(RenderLine(l, started) + "\n" + rest, cap), index),
                      ExpandLine(l) + "\n" + x)
  {
    ExpandLineNoNewline(l);
    RenderedLineChars(l, started);
    RenderedLineRead(l, started, "\n");
    LineGivesBack(RenderLine(l, started), ExpandLine(l), rest, x, index, cap);
  }

  /** The repaired decoder reads a rendered run list back as its expansion,
      with the count of non-newline characters as the length. */
  lemma {:induction false} RenderedDecodes(ls: seq<Line>, started: bool, index: nat, cap: nat)
    requires |ls| >= 1 && WellFormed(ls) && PrintableLines(ls)
    requires cap >= 1 && cap >= |RenderFrom(ls, started)|
    ensures GivesBack(Corrected.DecodeLines(Decoder.SplitLines(RenderFrom(ls, started), cap), index), ExpandAll(ls))
    decreases |ls|
  {
    assert Renderable(ls[0]);
    if |ls| == 1 {
      RenderedDecodesLast(ls[0], started, index, cap);
    } else {
      var st := started || ls[0] != [];
      var rest := RenderFrom(ls[1..], st);
      assert RenderFrom(ls, started) == RenderLine(ls[0], started) + "\n" + rest;
      assert ExpandAll(ls) == ExpandLine(ls[0]) + "\n" + ExpandAll(ls[1..]);
      assert WellFormed(ls[1..]) && PrintableLines(ls[1..]) by {
        forall i | 0 <= i < |ls[1..]| ensures MaximalLine(ls[1..][i]) && PrintableLine(ls[1..][i]) {
          assert ls[1..][i] == ls[i + 1];
        }
      }
      RenderedDecodes(ls[1..], st, index + 1, cap);
      RenderedDecodesMore(ls[0], started, rest, ExpandAll(ls[1..]), index, cap);
    }
  }

  lemma NewlinesJoin(a: string, b: string)
    requires Newlines(a) == 0
    ensures Newlines(a + "\n" + b) == 1 + Newlines(b)
  {
    assert multiset(a + "\n" + b) == multiset(a) + multiset("\n") + multiset(b);
  }

  // ------------------------------------------------------------ symbols

  lemma {:induction false} LineSymbolsOccur(l: Line)
    requires MaximalLine(l)
    ensures forall j :: 0 <= j < |l| ==> l[j].symbol in ExpandLine(l)
    decreases |l|
  {
    if l != [] {
      LineSymbolsOccur(l[1..]);
      assert Expand(l[0])[0] == l[0].symbol;
      forall j | 0 < j < |l| ensures l[j].symbol in ExpandLine(l) {
        assert l[j] == l[1..][j - 1];
      }
    }
  }

  /** Every run's symbol is a character of the text the runs stand for. */
  lemma {:induction false} SymbolsOccur(ls: seq<Line>)
    requires WellFormed(ls)
    ensures forall i, j :: 0 <= i < |ls| && 0 <= j < |ls[i]| ==> ls[i][j].symbol in ExpandAll(ls)
    decreases |ls|
  {
    if ls != [] {
      LineSymbolsOccur(ls[0]);
      if |ls| > 1 {
        SymbolsOccur(ls[1..]);
        forall i, j | 0 < i < |ls| && 0 <= j < |ls[i]| ensures ls[i][j].symbol in ExpandAll(ls) {
          assert ls[i] == ls[1..][i - 1];
        }
      }
    }
  }

  // ------------------------------------------------- newlines written

  lemma WellFormedTail(ls: seq<Line>)
    requires |ls| >= 1 && WellFormed(ls)
    ensures MaximalLine(ls[0]) && WellFormed(ls[1..])
  {
    forall i | 0 <= i < |ls[1..]| ensures MaximalLine(ls[1..][i]) {
      assert ls[1..][i] == ls[i + 1];
    }
  }

  lemma NoNewlineString(a: string)
    requires '\n' !in a
    ensures Newlines(a) == 0
  {
    assert '\n' !in multiset(a);
  }

  /** The rendering of `n` lines holds `n - 1` newlines. */
  lemma {:induction false} RenderNewlines(ls: seq<Line>, started: bool)
    requires |ls| >= 1 && WellFormed(ls)
    ensures Newlines(RenderFrom(ls, started)) == |ls| - 1
    decreases |ls|
  {
    WellFormedTail(ls);
    RenderedLineChars(ls[0], started);
    NoNewlineString(RenderLine(ls[0], started));
    if |ls| > 1 {
      RenderNewlines(ls[1..], started || ls[0] != []);
      NewlinesJoin(RenderLine(ls[0], started), RenderFrom(ls[1..], started || ls[0] != []));
    }
  }

  /** So does the expansion of `n` lines. */
  lemma {:induction false} ExpandNewlines(ls: seq<Line>)
    requires |ls| >= 1 && WellFormed(ls)
    ensures Newlines(ExpandAll(ls)) == |ls| - 1
    decreases |ls|
  {
    WellFormedTail(ls);
    ExpandLineNoNewline(ls[0]);
    if |ls| > 1 {
      ExpandNewlines(ls[1..]);
      NewlinesJoin(ExpandLine(ls[0]), ExpandAll(ls[1..]));
    }
  }

  lemma ExpandLineEmpty(l: Line)
    requires MaximalLine(l)
    ensures ExpandLine(l) == [] <==> l == []
  {
    if l != [] {
      assert |Expand(l[0])| >= 1;
    }
  }

  /** A rendering ends in a newline exactly when its last line is an empty
      line after a newline. */
  lemma {:induction false} RenderEnds(ls: seq<Line>, started: bool)
    requires |ls| >= 1 && WellFormed(ls)
    ensures Corrected.EndsWithNewline(RenderFrom(ls, started)) <==> |ls| >= 2 && ls[|ls| - 1] == []
    decreases |ls|
  {
    WellFormedTail(ls);
    if |ls| == 1 {
      RenderedLineChars(ls[0], started);
      NoNewlineNoEnd(RenderLine(ls[0], started));
    } else {
      var st := started || ls[0] != [];
      var rest := RenderFrom(ls[1..], st);
      JoinEnds(RenderLine(ls[0], started), rest);
      RenderEnds(ls[1..], st);
      assert ls[1..][|ls[1..]| - 1] == ls[|ls| - 1];
      if |ls| == 2 {
        RenderLineEmpty(ls[1], st);
      } else {
        assert rest == RenderLine(ls[1], st) + "\n" + RenderFrom(ls[2..], st || ls[1] != []) by {
          assert ls[1..][0] == ls[1] && ls[1..][1..] == ls[2..];
        }
      }
    }
  }

  /** So does an expansion. */
  lemma {:induction false} ExpandEnds(ls: seq<Line>)
    requires |ls| >= 1 && WellFormed(ls)
    ensures Corrected.EndsWithNewline(ExpandAll(ls)) <==> |ls| >= 2 && ls[|ls| - 1] == []
    decreases |ls|
  {
    WellFormedTail(ls);
    if |ls| == 1 {
      ExpandLineNoNewline(ls[0]);
      assert '\n' !in multiset(ExpandLine(ls[0]));
      NoNewlineNoEnd(ExpandLine(ls[0]));
    } else {
      var rest := ExpandAll(ls[1..]);
      JoinEnds(ExpandLine(ls[0]), rest);
      ExpandEnds(ls[1..]);
      assert ls[1..][|ls[1..]| - 1] == ls[|ls| - 1];
      if |ls| == 2 {
        WellFormedTail(ls[1..]);
        ExpandLineEmpty(ls[1]);
      } else {
        assert rest == ExpandLine(ls[1]) + "\n" + ExpandAll(ls[2..]) by {
          assert ls[1..][0] == ls[1] && ls[1..][1..] == ls[2..];
        }
      }
    }
  }

  /** A text with no newline does not end in one. */
  lemma NoNewlineNoEnd(e: string)
    requires '\n' !in e
    ensures !Corrected.EndsWithNewline(e)
  {
    if e != [] {
      assert e[|e| - 1] in e;
    }
  }

  /** Two parts joined by a newline end in one exactly when the second part
      is empty or ends in one. */
  lemma JoinEnds(e: string, rest: string)
    ensures Corrected.EndsWithNewline(e + "\n" + rest) <==> rest == [] || Corrected.EndsWithNewline(rest)
  {
    var j := e + "\n" + rest;
    assert j[|j| - 1] == if rest == [] then '\n' else rest[|rest| - 1];
  }

  /** The encoder writes one newline per newline of its input, blank lines
      included, and its output ends in a newline exactly when its input
      does. */
  lemma CompressNewlines(s: string)
    requires Encoder.Compress(s).Success?
    ensures var e := Encoder.Compress(s).value;
      Newlines(e.text) == Newlines(s) && (Corrected.EndsWithNewline(e.text) <==> Corrected.EndsWithNewline(s))
  {
    Encoder.CompressFaithful(s);
    var ls := Encoder.Compress(s).value.lines;
    RenderNewlines(ls, false);
    ExpandNewlines(ls);
    RenderEnds(ls, false);
    ExpandEnds(ls);
  }

  // ------------------------------------------------------------ theorem

  /** The round trip: what the encoder writes for `s`, the repaired decoder
      turns back into `s`, reporting as length the number of characters of
      `s` that are not newlines. */
  lemma RoundTrip(s: string)
    requires Encoder.Compress(s).Success?
    requires forall i :: 0 <= i < |s| ==> s[i] == '\n' || IsPrint(s[i])
    ensures var r := Corrected.Decompress(Encoder.Compress(s).value.text);
      r.Success? && r.value.text == s && r.value.length == |s| - Newlines(s)
  {
    Encoder.CompressFaithful(s);
    var e := Encoder.Compress(s).value;
    var ls := e.lines;
    SymbolsOccur(ls);
    assert PrintableLines(ls) by {
      forall i, j | 0 <= i < |ls| && 0 <= j < |ls[i]| ensures IsPrint(ls[i][j].symbol) {
        assert ValidToken(ls[i][j]);
      }
    }
    assert e.text != [] by {
      if |ls| == 1 {
        RenderLineEmpty(ls[0], false);
      }
    }
    RenderedDecodes(ls, false, 0, |e.text|);
  }
}

=== FILE: runs.dfy ===
/** The encoder's abstract result: a list of lines, each a list of runs
    `(symbol, count)`, together with what a run list means (its expansion
    back into text), how the encoder renders it, and the length the encoder
    reports for it. */
module Runs {
  import opened CText
  import Decimal

  /** One run: `symbol` repeated `count` times. */
  datatype Token = Token(symbol: char, count: nat)

  /** The runs of one input line, left to right. */
  type Line = seq<Token>

  // ---------------------------------------------------------------- meaning

  function Expand(t: Token): string {
    Repeat(t.symbol, t.count)
  }

  function ExpandLine(l: Line): string {
    if l == [] then [] else Expand(l[0]) + ExpandLine(l[1..])
  }

  /** The text a run list stands for: its lines expanded and joined with
      newlines (n lines, n - 1 newlines). */
  function ExpandAll(ls: seq<Line>): string {
    if |ls| == 0 then []
    else if |ls| == 1 then ExpandLine(ls[0])
    else ExpandLine(ls[0]) + "\n" + ExpandAll(ls[1..])
  }

  /** A run the encoder can produce: never empty, never of the separator
      or of a newline. */
  predicate ValidToken(t: Token) {
    t.count >= 1 && t.symbol != ' ' && t.symbol != '\n'
  }

  /** The runs of a line are valid and maximal: neighbours differ. */
  predicate MaximalLine(l: Line) {
    && (forall j :: 0 <= j < |l| ==> ValidToken(l[j]))
    && (forall j :: 0 < j < |l| ==> l[j - 1].symbol != l[j].symbol)
  }

  predicate WellFormed(ls: seq<Line>) {
    forall i :: 0 <= i < |ls| ==> MaximalLine(ls[i])
  }

  // -------------------------------------------------------------- rendering

  /** `fprintf("%c %d")` of one run. */
  function TokenText(t: Token): string {
    [t.symbol, ' '] + Decimal.Format(t.count)
  }

  /** The tokens of one line. Every token is preceded by a space except the
      first one written in the whole output; `started` says whether a token
      has been written before this line. */
  function RenderLine(l: Line, started: bool): string {
    if l == [] then []
    else (if started then " " else "") + TokenText(l[0]) + RenderLine(l[1..], true)
  }

  function RenderFrom(ls: seq<Line>, started: bool): string {
    if |ls| == 0 then []
    else if |ls| == 1 then RenderLine(ls[0], started)
    else RenderLine(ls[0], started) + "\n" + RenderFrom(ls[1..], started || ls[0] != [])
  }

  /** The encoder's output text for a run list. */
  function Render(ls: seq<Line>): string {
    RenderFrom(ls, false)
  }

  function TokenCount(ls: seq<Line>): nat {
    if |ls| == 0 then 0 else |ls[0]| + TokenCount(ls[1..])
  }

  // ----------------------------------------------------------------- length

  /** The encoder's digit allowance for a count: 1, 2, or 3 for anything
      above 99. */
  function Width(n: nat): nat {
    if n > 9 then (if n > 99 then 3 else 2) else 1
  }

  /** Symbol, one space and the digit allowance, per token of a line. */
  function Cost(l: Line): nat {
    if l == [] then 0 else 2 + Width(l[0].count) + Cost(l[1..])
  }

  /** `compressed_length` for a run list: the token costs plus one per
      newline; separator spaces between tokens are not counted. */
  function Measure(ls: seq<Line>): nat {
    if |ls| == 0 then 0
    else if |ls| == 1 then Cost(ls[0])
    else Cost(ls[0]) + 1 + Measure(ls[1..])
  }

  // ------------------------------------------------------- growing a list

  /** `ls` with `t` added at the end of its last line. */
  function AppendToken(ls: seq<Line>, t: Token): (r: seq<Line>)
    requires |ls| >= 1
    ensures |r| == |ls|
  {
    ls[..|ls| - 1] + [ls[|ls| - 1] + [t]]
  }

  lemma AppendTokenSplit(ls: seq<Line>, t: Token)
    requires |ls| >= 2
    ensures AppendToken(ls, t)[0] == ls[0]
    ensures AppendToken(ls, t)[1..] == AppendToken(ls[1..], t)
  {
  }

  lemma NewLineSplit(ls: seq<Line>)
    requires |ls| >= 1
    ensures (ls + [[]])[0] == ls[0]
    ensures (ls + [[]])[1..] == ls[1..] + [[]]
  {
  }

  lemma {:induction false} ExpandLineSnoc(l: Line, t: Token)
    ensures ExpandLine(l + [t]) == ExpandLine(l) + Expand(t)
    decreases |l|
  {
    if l == [] {
      assert [] + [t] == [t];
      assert [t][1..] == [];
    } else {
      assert (l + [t])[1..] == l[1..] + [t];
      ExpandLineSnoc(l[1..], t);
    }
  }

  /** Adding a run at the end of the last line extends the expansion by that
      run. */
  lemma {:induction false} ExpandAllAppendToken(ls: seq<Line>, t: Token)
    requires |ls| >= 1
    ensures ExpandAll(AppendToken(ls, t)) == ExpandAll(ls) + Expand(t)
    decreases |ls|
  {
    if |ls| == 1 {
      ExpandLineSnoc(ls[0], t);
    } else {
      AppendTokenSplit(ls, t);
      ExpandAllAppendToken(ls[1..], t);
    }
  }

  /** Starting a new line extends the expansion by one newline. */
  lemma {:induction false} ExpandAllNewLine(ls: seq<Line>)
    requires |ls| >= 1
    ensures ExpandAll(ls + [[]]) == ExpandAll(ls) + "\n"
    decreases |ls|
  {
    NewLineSplit(ls);
    if |ls| > 1 {
      ExpandAllNewLine(ls[1..]);
    }
  }

  lemma {:induction false} RenderLineSnoc(l: Line, t: Token, started: bool)
    ensures RenderLine(l + [t], started)
         == RenderLine(l, started) + (if started || l != [] then " " else "") + TokenText(t)
    decreases |l|
  {
    if l == [] {
      assert [] + [t] == [t];
      assert [t][1..] == [];
    } else {
      assert (l + [t])[1..] == l[1..] + [t];
      RenderLineSnoc(l[1..], t, true);
    }
  }

  /** Writing one more token: a space first unless it is the first token of
      the output, then the token text. */
  lemma {:induction false} RenderAppendToken(ls: seq<Line>, t: Token, started: bool)
    requires |ls| >= 1
    ensures RenderFrom(AppendToken(ls, t), started)
         == RenderFrom(ls, started) + (if started || TokenCount(ls) > 0 then " " else "") + TokenText(t)
    decreases |ls|
  {
    if |ls| == 1 {
      RenderLineSnoc(ls[0], t, started);
      assert AppendToken(ls, t) == [ls[0] + [t]];
      assert TokenCount(ls) == |ls[0]| by {
        assert ls[1..] == [];
      }
    } else {
      var st := started || ls[0] != [];
      var r := AppendToken(ls, t);
      AppendTokenSplit(ls, t);
      RenderAppendToken(ls[1..], t, st);
      RenderFromCons(r, started);
      RenderFromCons(ls, started);
      var a := RenderLine(ls[0], started) + "\n";
      var b := RenderFrom(ls[1..], st);
      var gap := if st || TokenCount(ls[1..]) > 0 then " " else "";
      assert gap == (if started || TokenCount(ls) > 0 then " " else "") by {
        assert TokenCount(ls) == |ls[0]| + TokenCount(ls[1..]);
      }
      Reassociate(a, b, gap, TokenText(t));
    }
  }

  lemma RenderFromCons(ls: seq<Line>, started: bool)
    requires |ls| >= 2
    ensures RenderFrom(ls, started) == RenderLine(ls[0], started) + "\n" + RenderFrom(ls[1..], started || ls[0] != [])
  {
  }

  lemma {:induction false} RenderNewLine(ls: seq<Line>, started: bool)
    requires |ls| >= 1
    ensures RenderFrom(ls + [[]], started) == RenderFrom(ls, started) + "\n"
    decreases |ls|
  {
    NewLineSplit(ls);
    var st := started || ls[0] != [];
    RenderFromCons(ls + [[]], started);
    if |ls| == 1 {
      assert (ls + [[]])[1..] == [[]];
      assert RenderFrom([[]], st) == [];
    } else {
      RenderNewLine(ls[1..], st);
      RenderFromCons(ls, started);
      Associate(RenderLine(ls[0], started) + "\n", RenderFrom(ls[1..], st), "\n");
    }
  }

  lemma {:induction false} CostSnoc(l: Line, t: Token)
    ensures Cost(l + [t]) == Cost(l) + 2 + Width(t.count)
    decreases |l|
  {
    if l == [] {
      assert [] + [t] == [t];
      assert [t][1..] == [];
    } else {
      assert (l + [t])[1..] == l[1..] + [t];
      CostSnoc(l[1..], t);
    }
  }

  lemma {:induction false} MeasureAppendToken(ls: seq<Line>, t: Token)
    requires |ls| >= 1
    ensures Measure(AppendToken(ls, t)) == Measure(ls) + 2 + Width(t.count)
    ensures TokenCount(AppendToken(ls, t)) == TokenCount(ls) + 1
    decreases |ls|
  {
    if |ls| == 1 {
      CostSnoc(ls[0], t);
    } else {
      AppendTokenSplit(ls, t);
      MeasureAppendToken(ls[1..], t);
    }
  }

  lemma {:induction false} MeasureNewLine(ls: seq<Line>)
    requires |ls| >= 1
    ensures Measure(ls + [[]]) == Measure(ls) + 1
    ensures TokenCount(ls + [[]]) == TokenCount(ls)
    decreases |ls|
  {
    NewLineSplit(ls);
    if |ls| > 1 {
      MeasureNewLine(ls[1..]);
    } else {
      var none: seq<Line> := [[]];
      assert (ls + none)[1..] == none && TokenCount(none) == 0;
    }
  }
}

=== FILE: validator.dfy ===
/** `validate_line` (rle_tool.c): the classifier that gates decoding. It
    reads one line of encoded text left to right and either accepts it or
    names the first grammar rule the line breaks. */
module Validator {
  import opened CText
  import Decimal

  /** The verdict; the C function returns 1 for `Valid` and 0 otherwise,
      after printing a message naming the reason. */
  datatype Verdict =
    | Valid
    | NonPrintable      // a token symbol fails `isprint`
    | MissingSeparator  // the symbol is not followed by a space
    | MissingDigits     // the space is not followed by a digit
    | TrailingGarbage   // the digits are followed by something other than a space or line end

  /** The classifier: one pass of the `while (*ptr)` loop per token.
      `Head` reads NUL at the end of the string, so the C tests `!*ptr`
      become `Head(..) == NUL`. */
  function Validate(s: string): Verdict
    decreases |s|, 1
  {
    if Head(s) == NUL then Valid else AtToken(Skip(s, Blank))
  }

  /** After the leading spaces: a line end, or a symbol and its space. */
  function AtToken(t: string): Verdict
    decreases |t|, 0
  {
    if Head(t) == NUL || Head(t) == '\n' then Valid
    else if !IsPrint(t[0]) then NonPrintable
    else if Head(t[1..]) != ' ' then MissingSeparator
    else AtDigits(t[2..])
  }

  /** After `symbol space`: one or more digits, then a space or a line end. */
  function AtDigits(d: string): Verdict
    decreases |d|, 2
  {
    if !IsDigit(Head(d)) then MissingDigits
    else
      var u := Skip(d, Digit);
      if Head(u) != NUL && Head(u) != ' ' && Head(u) != '\n' then TrailingGarbage
      else Validate(u)
  }

  /** `validate_line(line) == 1`. */
  predicate IsValidLine(s: string) {
    Validate(s) == Valid
  }

  // ------------------------------------------------------------- grammar

  /** One token as it sits on a line: `gap` spaces, the symbol, one space,
      and the digit run. */
  datatype Lexeme = Lexeme(gap: nat, symbol: char, digits: string)

  /** A line's tokens followed by `trail` spaces. */
  datatype Layout = Layout(items: seq<Lexeme>, trail: nat)

  function LexemeText(x: Lexeme): string {
    Spaces(x.gap) + [x.symbol, ' '] + x.digits
  }

  function ItemsText(xs: seq<Lexeme>): string {
    if xs == [] then [] else LexemeText(xs[0]) + ItemsText(xs[1..])
  }

  function LayoutText(l: Layout): string {
    ItemsText(l.items) + Spaces(l.trail)
  }

  /** A token the grammar admits: a printable non-space symbol and at least
      one digit. */
  predicate GoodLexeme(x: Lexeme) {
    IsPrint(x.symbol) && x.symbol != ' ' && |x.digits| >= 1 && AllIn(x.digits, Digit)
  }

  /** Every token is admitted, and tokens after the first are separated from
      the previous one by at least one space. */
  predicate GoodLayout(l: Layout) {
    forall i :: 0 <= i < |l.items| ==> GoodLexeme(l.items[i]) && (i > 0 ==> l.items[i].gap >= 1)
  }

  /** Where the line's content stops: the end of the string or a newline.
      Whatever follows a newline at a token boundary is never looked at. */
  predicate LineEnd(tail: string) {
    Head(tail) == NUL || Head(tail) == '\n'
  }

  predicate Spells(l: Layout, tail: string, s: string) {
    s == LayoutText(l) + tail
  }

  /** `s` is a well-formed token layout up to its line end. */
  ghost predicate HasLayout(s: string) {
    exists l: Layout, tail: string :: GoodLayout(l) && LineEnd(tail) && Spells(l, tail, s)
  }

  // ------------------------------------------------------------- lemmas

  lemma SkipSpaces(n: nat, b: string)
    ensures Skip(Spaces(n) + b, Blank) == Skip(b, Blank)
  {
    SkipOver(Spaces(n), b, Blank);
  }

  /** Leading spaces are skipped up to the token they precede. */
  lemma ValidateSpaces(n: nat, t: string)
    requires Head(t) != NUL && Head(t) != ' '
    ensures Validate(Spaces(n) + t) == AtToken(t)
  {
    SkipSpaces(n, t);
    SkipNone(t, Blank);
    if n > 0 {
      assert (Spaces(n) + t)[0] == ' ';
    } else {
      assert Spaces(n) + t == t;
    }
  }

  lemma AtTokenSymbol(c: char, d: string)
    requires IsPrint(c) && c != ' '
    ensures AtToken([c, ' '] + d) == AtDigits(d)
  {
    var t := [c, ' '] + d;
    assert t[0] == c && t[1..][0] == ' ' && t[2..] == d;
  }

  lemma AtDigitsRun(digits: string, rest: string)
    requires |digits| >= 1 && AllIn(digits, Digit)
    requires Head(rest) == NUL || Head(rest) == ' ' || Head(rest) == '\n'
    ensures AtDigits(digits + rest) == Validate(rest)
  {
    SkipOver(digits, rest, Digit);
    SkipNone(rest, Digit);
    assert Head(digits + rest) == digits[0];
  }

  /** An admitted token followed by a space or the line end is passed over:
      the verdict is the verdict on what follows it. */
  lemma TokenStep(x: Lexeme, rest: string)
    requires GoodLexeme(x)
    requires Head(rest) == NUL || Head(rest) == ' ' || Head(rest) == '\n'
    ensures Validate(LexemeText(x) + rest) == Validate(rest)
  {
    var t := [x.symbol, ' '] + (x.digits + rest);
    assert LexemeText(x) + rest == Spaces(x.gap) + t;
    ValidateSpaces(x.gap, t);
    AtTokenSymbol(x.symbol, x.digits + rest);
    AtDigitsRun(x.digits, rest);
  }

  /** Spaces up to the line end are accepted. */
  lemma BlankStep(n: nat, tail: string)
    requires LineEnd(tail)
    ensures Validate(Spaces(n) + tail) == Valid
  {
    SkipSpaces(n, tail);
    SkipNone(tail, Blank);
  }

  /** What follows an admitted token inside a layout starts with a space or
      is the line end. */
  lemma LayoutHead(xs: seq<Lexeme>, trail: nat, tail: string)
    requires GoodLayout(Layout(xs, trail)) && LineEnd(tail)
    requires xs != [] ==> xs[0].gap >= 1
    ensures Head(ItemsText(xs) + Spaces(trail) + tail) in {NUL, ' ', '\n'}
  {
    if xs != [] {
      assert (ItemsText(xs) + Spaces(trail) + tail)[0] == LexemeText(xs[0])[0] == ' ';
    } else if trail > 0 {
      assert (ItemsText(xs) + Spaces(trail) + tail)[0] == ' ';
    } else {
      assert ItemsText(xs) + Spaces(trail) + tail == tail;
    }
  }

  lemma GoodLayoutTail(xs: seq<Lexeme>, trail: nat)
    requires xs != [] && GoodLayout(Layout(xs, trail))
    ensures GoodLayout(Layout(xs[1..], trail))
    ensures GoodLexeme(xs[0])
    ensures xs[1..] != [] ==> xs[1..][0].gap >= 1
  {
    assert GoodLexeme(xs[0]);
    forall i | 0 <= i < |xs[1..]|
      ensures GoodLexeme(xs[1..][i]) && (i > 0 ==> xs[1..][i].gap >= 1)
    {
      assert xs[1..][i] == xs[i + 1];
    }
    if |xs| > 1 {
      assert xs[1..][0] == xs[1];
    }
  }

  lemma {:induction false} ItemsValid(xs: seq<Lexeme>, trail: nat, tail: string)
    requires GoodLayout(Layout(xs, trail)) && LineEnd(tail)
    ensures Validate(ItemsText(xs) + Spaces(trail) + tail) == Valid
    decreases |xs|
  {
    if xs == [] {
      assert ItemsText(xs) + Spaces(trail) + tail == Spaces(trail) + tail;
      BlankStep(trail, tail);
    } else {
      var rest := ItemsText(xs[1..]) + Spaces(trail) + tail;
      assert ItemsText(xs) + Spaces(trail) + tail == LexemeText(xs[0]) + rest;
      GoodLayoutTail(xs, trail);
      LayoutHead(xs[1..], trail, tail);
      TokenStep(xs[0], rest);
      ItemsValid(xs[1..], trail, tail);
    }
  }

  /** The grammar is accepted: any admitted layout followed by a line end
      passes the validator. */
  lemma LayoutValid(l: Layout, tail: string)
    requires GoodLayout(l) && LineEnd(tail)
    ensures Validate(LayoutText(l) + tail) == Valid
  {
    ItemsValid(l.items, l.trail, tail);
    assert LayoutText(l) + tail == ItemsText(l.items) + Spaces(l.trail) + tail;
  }

  /** `l` preceded by `n` more spaces. */
  function Indent(l: Layout, n: nat): Layout {
    if l.items == [] then Layout([], l.trail + n)
    else Layout([l.items[0].(gap := l.items[0].gap + n)] + l.items[1..], l.trail)
  }

  /** The layout and line end read off an accepted line, one function per
      stage of the classifier. */
  function Lex(s: string): (Layout, string)
    requires Validate(s) == Valid
    decreases |s|, 1
  {
    if Head(s) == NUL then (Layout([], 0), s)
    else
      var t := Skip(s, Blank);
      var (l, tail) := LexToken(t);
      (Indent(l, |s| - |t|), tail)
  }

  function LexToken(t: string): (Layout, string)
    requires AtToken(t) == Valid
    decreases |t|, 0
  {
    if Head(t) == NUL || Head(t) == '\n' then (Layout([], 0), t)
    else LexDigits(t[0], t[2..])
  }

  function LexDigits(c: char, d: string): (Layout, string)
    requires AtDigits(d) == Valid
    decreases |d|, 2
  {
    var u := Skip(d, Digit);
    var (rest, tail) := Lex(u);
    (Layout([Lexeme(0, c, d[..|d| - |u|])] + rest.items, rest.trail), tail)
  }

  lemma SpacesAdd(a: nat, b: nat)
    ensures Spaces(a + b) == Spaces(a) + Spaces(b)
  {
  }

  /** Leading spaces folded into a layout: the text gains them in front, and
      the layout stays admitted. */
  lemma IndentText(l: Layout, n: nat)
    requires GoodLayout(l)
    ensures LayoutText(Indent(l, n)) == Spaces(n) + LayoutText(l)
    ensures GoodLayout(Indent(l, n))
  {
    IndentSpells(l, n);
    IndentGood(l, n);
  }

  lemma IndentSpells(l: Layout, n: nat)
    ensures LayoutText(Indent(l, n)) == Spaces(n) + LayoutText(l)
  {
    if l.items == [] {
      SpacesAdd(n, l.trail);
      assert l.trail + n == n + l.trail;
    } else {
      IndentFirstSpells(l, n);
    }
  }

  /** The same, when the spaces go in front of a first token. */
  lemma IndentFirstSpells(l: Layout, n: nat)
    requires l.items != []
    ensures LayoutText(Indent(l, n)) == Spaces(n) + LayoutText(l)
  {
    var x := l.items[0];
    var x' := Indent(l, n).items[0];
    var more := ItemsText(l.items[1..]) + Spaces(l.trail);
    SpacesAdd(n, x.gap);
    assert x'.gap == n + x.gap;
    assert Indent(l, n).items[1..] == l.items[1..];
    assert LexemeText(x') == Spaces(n) + LexemeText(x) by {
      Nest(Spaces(n), Spaces(x.gap), [x.symbol, ' '], x.digits);
      Nest(Spaces(n), Spaces(x.gap) + [x.symbol, ' '] + x.digits, [], []);
    }
    assert LayoutText(Indent(l, n)) == LexemeText(x') + more;
    assert LayoutText(l) == LexemeText(x) + more;
    Regroup(Spaces(n) + LayoutText(l), Spaces(n), LayoutText(l), LexemeText(x), more);
  }

  lemma IndentGood(l: Layout, n: nat)
    requires GoodLayout(l)
    ensures GoodLayout(Indent(l, n))
  {
    var l' := Indent(l, n);
    forall i | 0 <= i < |l'.items|
      ensures GoodLexeme(l'.items[i]) && (i > 0 ==> l'.items[i].gap >= 1)
    {
      if i > 0 { assert l'.items[i] == l.items[i]; }
      else { assert GoodLexeme(l.items[0]); }
    }
  }

  /** The spaces `Skip` walks over. */
  lemma SkippedSpaces(s: string)
    ensures s == Spaces(|s| - |Skip(s, Blank)|) + Skip(s, Blank)
  {
    var t := Skip(s, Blank);
    var n := |s| - |t|;
    assert s[..n] == Spaces(n);
    assert s == s[..n] + t;
  }

  /** Soundness of the grammar: an accepted line is an admitted layout
      followed by a line end, and `Lex` finds them. */
  lemma {:induction false} LexSound(s: string)
    requires Validate(s) == Valid
    ensures GoodLayout(Lex(s).0) && LineEnd(Lex(s).1)
    ensures s == LayoutText(Lex(s).0) + Lex(s).1
    ensures |Lex(s).0.items| > 0 ==> Head(s) != NUL && Head(s) != '\n'
    ensures |Lex(s).0.items| > 0 && Head(s) == ' ' ==> Lex(s).0.items[0].gap >= 1
    decreases |s|, 1
  {
    if Head(s) == NUL {
      assert LayoutText(Lex(s).0) == [];
    } else {
      var t := Skip(s, Blank);
      var n := |s| - |t|;
      assert AtToken(t) == Valid;
      LexTokenSound(t);
      var l := LexToken(t).0;
      var tail := LexToken(t).1;
      assert Lex(s) == (Indent(l, n), tail);
      IndentText(l, n);
      SkippedSpaces(s);
      Regroup(s, Spaces(n), t, LayoutText(l), tail);
      if n == 0 {
        assert t == s;
      } else {
        assert s[0] == ' ';
      }
    }
  }

  lemma {:induction false} LexTokenSound(t: string)
    requires AtToken(t) == Valid && Head(t) != ' '
    ensures GoodLayout(LexToken(t).0) && LineEnd(LexToken(t).1)
    ensures t == LayoutText(LexToken(t).0) + LexToken(t).1
    ensures |LexToken(t).0.items| > 0 ==> Head(t) != NUL && Head(t) != '\n'
    decreases |t|, 0
  {
    if Head(t) == NUL || Head(t) == '\n' {
      assert LayoutText(LexToken(t).0) == [];
    } else {
      LexDigitsSound(t[0], t[2..]);
      assert t == [t[0], ' '] + t[2..];
    }
  }

  /** The text of a layout with one more token in front. */
  lemma ConsText(c: char, digits: string, rest: Layout, tail: string)
    ensures [c, ' '] + digits + (LayoutText(rest) + tail)
         == LayoutText(Layout([Lexeme(0, c, digits)] + rest.items, rest.trail)) + tail
  {
    var x := Lexeme(0, c, digits);
    var l := Layout([x] + rest.items, rest.trail);
    assert l.items[0] == x && l.items[1..] == rest.items;
    assert Spaces(0) == [];
    assert LexemeText(x) == [c, ' '] + digits;
    assert ItemsText(l.items) == LexemeText(x) + ItemsText(rest.items);
  }

  lemma ConsGood(x: Lexeme, rest: Layout)
    requires GoodLexeme(x) && GoodLayout(rest)
    requires |rest.items| > 0 ==> rest.items[0].gap >= 1
    ensures GoodLayout(Layout([x] + rest.items, rest.trail))
  {
    var l := Layout([x] + rest.items, rest.trail);
    forall i | 0 <= i < |l.items|
      ensures GoodLexeme(l.items[i]) && (i > 0 ==> l.items[i].gap >= 1)
    {
      if i > 0 {
        assert l.items[i] == rest.items[i - 1];
      }
    }
  }

  /** The digit run after a symbol: a well-formed lexeme, followed by an
      accepted remainder that starts at a space or a line end. */
  lemma DigitRun(c: char, d: string)
    requires IsPrint(c) && c != ' ' && AtDigits(d) == Valid
    ensures var u := Skip(d, Digit);
      && |u| < |d| && Validate(u) == Valid
      && d == d[..|d| - |u|] + u
      && GoodLexeme(Lexeme(0, c, d[..|d| - |u|]))
      && (Head(u) == NUL || Head(u) == ' ' || Head(u) == '\n')
  {
  }

  lemma {:induction false} LexDigitsSound(c: char, d: string)
    requires IsPrint(c) && c != ' ' && AtDigits(d) == Valid
    ensures GoodLayout(LexDigits(c, d).0) && LineEnd(LexDigits(c, d).1)
    ensures [c, ' '] + d == LayoutText(LexDigits(c, d).0) + LexDigits(c, d).1
    ensures |LexDigits(c, d).0.items| > 0
    decreases |d|, 2
  {
    DigitRun(c, d);
    var u := Skip(d, Digit);
    var digits := d[..|d| - |u|];
    LexSound(u);
    var rest := Lex(u).0;
    var tail := Lex(u).1;
    var l := Layout([Lexeme(0, c, digits)] + rest.items, rest.trail);
    assert LexDigits(c, d) == (l, tail);
    ConsText(c, digits, rest, tail);
    Regroup([c, ' '] + d, [c, ' '], d, digits, u);
    ConsGood(Lexeme(0, c, digits), rest);
  }

  /** The validator accepts exactly the admitted layouts: zero or more
      tokens `symbol space digits`, separated by one or more spaces, with
      spaces allowed before and after, up to the end of the string or a
      newline. */
  lemma ValidIffLayout(s: string)
    ensures Validate(s) == Valid <==> HasLayout(s)
  {
    if Validate(s) == Valid {
      LexSound(s);
      var (l, tail) := Lex(s);
      assert Spells(l, tail, s);
    }
    if HasLayout(s) {
      var l: Layout, tail: string :| GoodLayout(l) && LineEnd(tail) && Spells(l, tail, s);
      LayoutValid(l, tail);
    }
  }

  /** A blank line — nothing but spaces up to the end or a newline — is
      accepted. */
  lemma BlankAccepted(s: string, n: nat, tail: string)
    requires s == Spaces(n) + tail && LineEnd(tail)
    ensures Validate(s) == Valid
  {
    BlankStep(n, tail);
  }

  // ------------------------------------------------- the rejection reasons

  /** A token symbol that is neither printable, nor a line end, is
      reported as non-printable. */
  lemma RejectNonPrintable(n: nat, c: char, r: string)
    requires !IsPrint(c) && c != NUL && c != '\n'
    ensures Validate(Spaces(n) + [c] + r) == NonPrintable
  {
    assert Spaces(n) + [c] + r == Spaces(n) + ([c] + r);
    ValidateSpaces(n, [c] + r);
  }

  /** A symbol not followed by a space is reported as a missing separator. */
  lemma RejectMissingSeparator(n: nat, c: char, r: string)
    requires IsPrint(c) && c != ' ' && Head(r) != ' '
    ensures Validate(Spaces(n) + [c] + r) == MissingSeparator
  {
    assert Spaces(n) + [c] + r == Spaces(n) + ([c] + r);
    ValidateSpaces(n, [c] + r);
    assert ([c] + r)[1..] == r;
  }

  /** `symbol space` not followed by a digit is reported as missing digits;
      this covers a second space, as in `"a  3"`. */
  lemma RejectMissingDigits(n: nat, c: char, r: string)
    requires IsPrint(c) && c != ' ' && !IsDigit(Head(r))
    ensures Validate(Spaces(n) + [c, ' '] + r) == MissingDigits
  {
    assert Spaces(n) + [c, ' '] + r == Spaces(n) + ([c, ' '] + r);
    ValidateSpaces(n, [c, ' '] + r);
    AtTokenSymbol(c, r);
  }

  /** Digits followed by anything but a space or a line end are reported as
      trailing garbage, as in `"a 3x"`. */
  lemma RejectTrailingGarbage(n: nat, c: char, digits: string, r: string)
    requires IsPrint(c) && c != ' ' && |digits| >= 1 && AllIn(digits, Digit)
    requires !IsDigit(Head(r)) && Head(r) != NUL && Head(r) != ' ' && Head(r) != '\n'
    ensures Validate(Spaces(n) + [c, ' '] + digits + r) == TrailingGarbage
  {
    Nest(Spaces(n), [c, ' '], digits, r);
    ValidateSpaces(n, [c, ' '] + (digits + r));
    AtTokenSymbol(c, digits + r);
    AtDigitsGarbage(digits, r);
  }

  lemma AtDigitsGarbage(digits: string, r: string)
    requires |digits| >= 1 && AllIn(digits, Digit)
    requires !IsDigit(Head(r)) && Head(r) != NUL && Head(r) != ' ' && Head(r) != '\n'
    ensures AtDigits(digits + r) == TrailingGarbage
  {
    SkipOver(digits, r, Digit);
    SkipNone(r, Digit);
    assert Head(digits + r) == digits[0];
  }

  /** `"a 3x"`: the digits run into an `x`. */
  lemma ExampleTrailingGarbage()
    ensures Validate("a 3x") == TrailingGarbage
  {
    assert Spaces(0) == [];
    assert "a 3x" == Spaces(0) + ['a', ' '] + "3" + "x";
    RejectTrailingGarbage(0, 'a', "3", "x");
  }

  /** `"a  3"`: a second space where the digits should start. */
  lemma ExampleDoubleSpace()
    ensures Validate("a  3") == MissingDigits
  {
    assert Spaces(0) == [];
    assert "a  3" == Spaces(0) + ['a', ' '] + " 3";
    RejectMissingDigits(0, 'a', " 3");
  }

  /** `"a 3 b\n"`: the second token has no count, and the C reports the
      missing space after `b` before it looks for digits; the first token is
      passed over. */
  lemma ExampleMissingCount()
    ensures Validate("a 3 b\n") == MissingSeparator
  {
    var a := Lexeme(0, 'a', "3");
    assert Spaces(0) == [];
    assert "a 3 b\n" == LexemeText(a) + " b\n";
    TokenStep(a, " b\n");
    assert Spaces(1) == [' '] + Spaces(0) == " ";
    assert " b\n" == Spaces(1) + ['b'] + "\n";
    RejectMissingSeparator(1, 'b', "\n");
  }

  /** `"a 3 b 2\n"`, the encoding of `"aaabb\n"`, is accepted. */
  lemma ExampleAccepted()
    ensures Validate("a 3 b 2\n") == Valid
  {
    var a := Lexeme(0, 'a', "3");
    var b := Lexeme(1, 'b', "2");
    assert Spaces(0) == [];
    assert Spaces(1) == [' '] + Spaces(0) == " ";
    assert "a 3 b 2\n" == LexemeText(a) + (LexemeText(b) + "\n");
    assert AllIn("2", Digit);
    TokenStep(b, "\n");
    TokenStep(a, LexemeText(b) + "\n");
    assert Validate("\n") == Valid;
  }
}
